=== FILE: README.md ===
# imgur-auto-delete, modelled in Dafny

`main.py` drives a browser through a user's Imgur "posts" grid and deletes the
posts one at a time. This project models the decision logic of that script:

- the link extractor `find_post_links_sorted`, which keeps the visible post
  links, orders them row-major by on-screen position and drops repeated hrefs
  (`links.dfy`, module `Links`);
- the href classifier of `delete_one` (`classify.dfy`, module `PostKinds`);
- `safe_click`, the ordered "try each selector until one works" stages, the
  image, album (`delete_post_container`) and overflow-menu deletion drivers,
  and the `(success, images_deleted)` reply of `delete_one` (`drivers.dfy`,
  module `Drivers`);
- the main `while processed < max_to_process` loop, with its counting rule and
  its "same scroll height twice means no more content" stop (`runloop.dfy`,
  module `RunLoop`);
- the small parsers of the interactive setup: the username guessed from a
  saved browser session, and the replies accepted by `prompt_yes_no` and
  `prompt_int` (`setup.dfy`, module `Setup`).

`strings.dfy` (module `Strings`) holds the Python `str` operations the script
relies on: `split(c)[0]`, `split("/")[-1]`, `strip()` with Python's whitespace
set, and `lower()`. `wrappers.dfy` holds `Option`.

The browser is an oracle. Each driver stage sees a `View`, a map from the
selector text to a `Probe(visible, clickOk)`. A selector the map does not
mention locates nothing. The selector lists are those `main.py` tries, in its
order, each keyed by the locator the code actually builds: the two role lookups
of the "Delete Post Only" dialog are keyed as the button named `button`, which
is what `get_by_role('button', name=args[0])` asks for (see Findings). Every driver also returns the list of real clicks it
made, so the dry-run promise can be stated. The main loop consumes one `Round`
per pass: the grid's anchors, the post page behind each href, and the scroll
height read at the end of the pass.

Notes on what the code does:

- The image test runs before the album test (main.py:569-573), although the
  comment at main.py:566-567 lists albums first. An album-prefixed href that also
  contains `/image/` is therefore treated as an image (`PostKinds.AlbumPrefixIsAlbum`).
- `POST_HREF_PAT` accepts any path whose first five characters after the `/` are
  letters or digits, so a path such as `/randomPath123` is a post href
  (`Links.LongAlnumPathIsPostHref`). `BAD_PREFIXES` only ever rejects such paths
  (`Links.IsPostHref`).
- After the cap is reached inside a pass, the loop still reads the scroll
  height. It may end the run as "no more content" instead of "cap reached".
  In the model, `RunLoop.Run` consumes that pass's height too.
- The inner `for` loop walks the list extracted at the start of the pass. It is
  not re-extracted after each deletion.

## Model

| member | source | states |
|---|---|---|
| Strings.BeforeFirst | main.py:432 | `split(c)[0]`: the longest prefix without `c`, which ends at the first `c` or at the end |
| Strings.LastSegment | main.py:569 | `split("/")[-1]`: a suffix with no `/`, preceded by a `/` unless it is the whole string |
| Strings.Strip | main.py:61 | `strip()`: the result sits in the input with only whitespace before and after it, and neither starts nor ends with whitespace |
| Strings.Lower | main.py:61 | `lower()`: the length is kept, no ASCII capital survives, and every character is either kept or is a capital turned into its small letter |
| Strings.ContainsAt | main.py:569 | `t in s` holds whenever `t` occurs at some position of `s` |
| Strings.ContainsHasPosition | main.py:569 | and every `t in s` has such a position |
| Strings.FirstSegmentIs | main.py:568 | `s` starts with `w` and a separator exactly when `w` is the text before the first separator |
| Strings.StripEmptyIffBlank | main.py:62-66 | `strip()` yields the empty string exactly for lines made only of whitespace |
| Links.Normalize | main.py:432 | the href with fragment and query dropped: a prefix of the raw href, free of `#` and `?`, cut exactly at the first of them |
| Links.SelectorIsImplied | main.py:420-423 | the CSS selector admits every anchor whose normalized href starts with `/`, so only the later tests filter |
| Links.MatchesPostPattern | main.py:362 | `POST_HREF_PAT` by path segments: the first segment is `gallery`, `a`, `post` or `image` and another follows, or five letters or digits open the path |
| Links.PatternAlternatives | main.py:362 | `POST_HREF_PAT` holds exactly for the four fixed prefixes and for five leading letters or digits |
| Links.PostPrefixesAreGood | main.py:362-366 | no bad prefix can start an href that has one of the four fixed prefixes |
| Links.IsPostHref | main.py:433-436 | an href passes both tests exactly when it has one of the four fixed prefixes, or opens with five letters or digits and has no bad prefix |
| Links.LongAlnumPathIsPostHref | main.py:362-366 | example: `/randomPath123` passes both the bad-prefix test and `POST_HREF_PAT` |
| Links.Collect | main.py:424-445 | every visible anchor with a box and a post href yields a link, and every link comes from such an anchor |
| Links.InsertPermutes | main.py:447 | one insertion step adds exactly the inserted link and nothing else |
| Links.InsertSorted | main.py:447 | inserting into a list sorted by `(y, x)` keeps it sorted |
| Links.SortByPositionSorted | main.py:447 | the sort is a permutation of its input and orders by `(y, x)` |
| Links.SortByPositionPermutes | main.py:447 | the sort neither adds, drops nor duplicates a link |
| Links.SortByPositionOrders | main.py:447 | the sorted list is in `(y, x)` order |
| Links.SortKeepsTies | main.py:447 | the sort is stable: links at the same position keep their document order |
| Links.SortKeepsMembers | main.py:447 | sorting neither adds nor loses a link |
| Links.FirstOccurrencesKeepsHrefs | main.py:448-452 | de-duplication keeps every href that occurs in the input |
| Links.FirstOccurrencesDistinct | main.py:448-452 | after de-duplication no href occurs twice |
| Links.FirstOccurrencesAreFirst | main.py:448-452 | each kept link is the first link with its href in the input |
| Links.FirstOccurrencesSorted | main.py:447-452 | de-duplicating a sorted list leaves it sorted |
| Links.FirstOccurrencesInOrder | main.py:448-452 | de-duplication only leaves links out: the kept links sit at increasing positions of the input |
| Links.FirstOccurrencesSubsequence | main.py:448-452 | the kept links are a subsequence of the input |
| Links.DedupeByHref | main.py:448-453 | the `seen`-set loop computes the first occurrences: distinct hrefs, the same href set as the input |
| Links.CollectIsSomes | main.py:424-445 | the collection loop yields exactly the links of the accepted anchors, in document order |
| Links.CollectInOrder | main.py:424-445 | the collected links are those of the accepted anchors in document order: each accepted anchor gives exactly one link, at a position after the links of earlier anchors |
| Links.CollectHrefs | main.py:424-445 | the collected hrefs are exactly those of the accepted anchors, each a normalized post href |
| Links.FindPostLinksSorted | main.py:413-453 | the extractor's result is sorted row-major and has distinct hrefs; its hrefs are exactly the accepted ones; each link is the first of its href in position order; the kept links stay in the sorted order |
| PostKinds.IsAlbum | main.py:568 | `is_album`: the first path segment is `a` or `gallery` and another segment follows |
| PostKinds.IsImage | main.py:569 | `is_image`: `/image/` anywhere suffices; an album is an image only through `/image/`; any other image href is rooted and at least eight long |
| PostKinds.Classify | main.py:568-573 | the dispatch: image exactly when `is_image`, album exactly for album prefixes without `/image/`, and the menu path for everything else |
| PostKinds.ImageSubstringWins | main.py:568-573 | an href containing `/image/` is handled as an image, whatever its prefix |
| PostKinds.AlbumPrefixIsAlbum | main.py:568-573 | an `/a/` or `/gallery/` href is handled as an album exactly when it does not contain `/image/` |
| PostKinds.SevenCharacterIds | main.py:568-573 | otherwise a rooted href whose last segment has seven characters is an image, and anything else takes the menu path |
| PostKinds.ShortAlbumExample | main.py:568 | `/a/123` is an album |
| PostKinds.GalleryExample | main.py:568 | `/gallery/abcDE` is an album |
| PostKinds.SevenCharacterAlbumExample | main.py:568-569 | `/a/AbCdEfG` stays an album despite its seven-character segment |
| PostKinds.ImagePathExample | main.py:569 | `/image/xyz` is an image |
| PostKinds.BareIdExample | main.py:569 | `/AbCdEfG` is an image |
| PostKinds.ImageInsideAlbumExample | main.py:568-573 | `/gallery/x/image/y` is an image, because the image test comes first |
| PostKinds.OtherExample | main.py:568-573 | `/post/abc` takes the menu path |
| Drivers.SafeClick | main.py:455-470 | success exactly when the element is visible and, outside dry-run, the click goes through; dry-run never clicks |
| Drivers.FirstSuccess | main.py:491-517 | a stage succeeds exactly when some selector works, and it stops at the first that does; dry-run makes no clicks |
| Drivers.ScanButtons | main.py:743-757 | the fallback scan picks the first button whose lower-cased label mentions more, menu or options and that `safe_click` accepts |
| Drivers.ImageDriver | main.py:573-679 | in dry-run, success exactly when "Delete image" is visible and clickable, and the only clicks are "Delete image" and "Cancel"; live, success exactly when both "Delete image" and "Yes, Delete It" work, and then those two are the clicks |
| Drivers.DryRunIgnoresCancel | main.py:614-659 | in dry-run, whether a Cancel control is found does not change the result |
| Drivers.DeletePostContainer | main.py:472-552 | reports initiation exactly when some "Delete post" selector works; dry-run makes no clicks |
| Drivers.FirstSuccessIgnores | main.py:532-548 | a stage depends only on what the page answers for its own selectors |
| Drivers.ConfirmAsWritten | main.py:526-537 | as written, the post-only confirmation never consults the "Delete Post Only" role button and clicks a stray button named "button" first |
| Drivers.ConfirmAsIntended | main.py:526-537 | with the intended role names, a working "Delete Post Only" button is the one confirmed, and a button named "button" plays no part |
| Drivers.ContainerIgnoresConfirmation | main.py:519-550 | the confirmation dialog has no effect on what `delete_post_container` returns |
| Drivers.AlbumDriver | main.py:681-715 | an album reply is `(True, 0)` or `(False, 0)`, and succeeds exactly when the container deletion starts |
| Drivers.AlbumIgnoresGlyphCount | main.py:688-697 | the counted "..." glyphs do not affect the album reply |
| Drivers.Verify | main.py:875-924 | the menu path fails exactly when the re-loaded post is still there and no early signal counted; an early signal counts only when no confirmation was found (clicked, outside dry-run) |
| Drivers.MenuDriver | main.py:716-924 | success needs the menu to open and "Delete image" and "Delete from account" to be found; once all three are, the reply is the verification's verdict on whether a confirmation was found; dry-run makes no clicks |
| Drivers.DeleteOne | main.py:554-924 | the reply is `(True, 1)`, `(True, 0)` or `(False, 0)`; `(True, 0)` comes only from albums; in dry-run the only real clicks are "Delete image" and "Cancel" |
| Drivers.DryRunImageOutcome | main.py:576-659 | a dry-run on an image page succeeds exactly when "Delete image" is visible and clickable |
| RunLoop.Credit | main.py:988-1000 | each reply adds at least one to `processed`, and exactly one for every reply `delete_one` can give |
| RunLoop.Reply | main.py:987 | the reply for a link of the pass is one of the three `delete_one` gives |
| RunLoop.ProcessLinks | main.py:985-1010 | below the cap, the inner loop adds one per link and stops as soon as the cap is reached, so it adds the smaller of the link count and the room left |
| RunLoop.HeightsAreReadHeights | main.py:1013-1017 | the recorded heights are exactly the heights read in the passes so far |
| RunLoop.FreshHeightsDistinct | main.py:1013-1017 | no pass repeating an earlier height is the same as all heights read being pairwise different |
| RunLoop.Pass | main.py:972-1019 | one pass keeps `processed` at the smaller of the cap and the links met, adds its height to `seen_heights`, and reports a repeat exactly when its height was read before |
| RunLoop.Run | main.py:965-1019 | the run processes the smaller of the cap and the links met; `seen_heights` holds every height read; the run stops as "no more content" exactly at the first pass that repeats a height; it ends as "cap reached" only with the cap reached, and as "interrupted" only below the cap with every pass used; no pass starts once the cap is reached, because the passes before the last one met fewer links than the cap |
| Setup.MatchIsCapture | main.py:39 | where the regular expression matches, the greedy `([^.]+)` group captures exactly the matched name |
| Setup.CaptureIsMatch | main.py:39 | what the group captures after the prefix is a match of the whole regular expression |
| Setup.CaptureAtIsMatch | main.py:39 | the greedy `([^.]+)` group captures a name exactly when the regular expression matches there with that name |
| Setup.MatchAtIsCapture | main.py:39 | the same equivalence, for all names at once |
| Setup.SearchFrom | main.py:39 | `re.search` returns the leftmost match, and `None` only when no position matches |
| Setup.Search | main.py:39 | `re.search` from the start: the leftmost match, and `None` exactly when nothing matches |
| Setup.FromOrigins | main.py:37-41 | the origins pass returns the name from the first origin that matches; `None` exactly when none does |
| Setup.CookieName | main.py:44-51 | a cookie domain gives a name only when it contains `.imgur.com` and the leftmost match's group 1 is not reserved; the name is then exactly that group 1, and it followed by `.imgur.com` occurs in the domain |
| Setup.CookieNameExample | main.py:48-49 | the domain `bob.imgur.com` gives the whole name `bob` |
| Setup.FromCookies | main.py:44-51 | the cookies pass returns the first unreserved name from a domain containing `.imgur.com`; it is never `www`, `i`, `api` or `m` |
| Setup.ExtractUsername | main.py:30-54 | the username is a non-empty name without a dot; the origins are tried first, and the cookies only when no origin matches |
| Setup.CookieNamesAreUnreserved | main.py:46-51 | a name found only through the cookies is never a reserved host |
| Setup.OriginsAreNotFiltered | main.py:37-41 | the origin `https://www.imgur.com` yields the username `www` |
| Setup.OriginName | main.py:37-51 | an origin gives a name exactly when it matches and the name is not reserved |
| Setup.FromOriginsUnreserved | main.py:37-51 | the filtered origins pass gives the first unreserved origin name and never a reserved one |
| Setup.ExtractUsernameUnreserved | main.py:30-54 | the filtered username is never a reserved host; the origins still come first |
| Setup.UnreservedFirstOriginAgrees | main.py:37-41 | when the first origin match is unreserved, the filtered origins pass agrees with the unfiltered one |
| Setup.UnreservedAgrees | main.py:30-54 | when the first origin match is unreserved, the filtered and unfiltered usernames agree |
| Setup.UnreservedSkipsWww | main.py:37-51 | with the filter, `https://www.imgur.com` yields no username |
| Setup.FirstReply | main.py:58-70 | a prompt answers with the first line its parser accepts; every earlier line was asked again; with no accepted line there is no answer |
| Setup.YesNoReply | main.py:61-70 | a blank line gives the default; a non-blank line answers yes exactly when its trimmed, lower-cased text is `y` or `yes`, and no exactly when it is `n` or `no`; every other non-blank line is asked again |
| Setup.PromptYesNo | main.py:56-70 | `prompt_yes_no` answers with the first accepted line, every earlier line being non-blank and rejected; a blank first line gives the default at once |
| Setup.YesNoDefaultOnlyWhenBlank | main.py:62-66 | the default answers exactly the blank lines; no other reply depends on it |
| Setup.YesExample | main.py:62-68 | `" YES\n"` is read as yes |
| Setup.NoExample | main.py:62-70 | `"N"` is read as no |
| Setup.OtherReplyExample | main.py:62-71 | `"nope"` makes the prompt ask again |
| Setup.ParseInt | main.py:82 | `int()`: text is accepted exactly when it is a digit string, optionally after one `+` or `-`, with single underscores only between digits; its value is the digits' value, negated after a minus |
| Setup.SignAndSeparatorExamples | main.py:82 | `"+5"`, `"-07"` and `"1_000"` read as 5, -7 and 1000 |
| Setup.MalformedNumberExamples | main.py:82-91 | `"1__0"`, `"_1"`, `"1_"`, `"-"`, `"+-1"` and the empty text are refused, so the prompt asks again |
| Setup.ShowNatDigits | main.py:82 | round-trip partner of `Setup.ParseInt`: the decimal form of a natural number is a non-empty digit string whose value is that number |
| Setup.ParseShowRoundTrip | main.py:82 | round-trip partner of `Setup.ParseInt`: reading back the decimal form of any integer gives that integer, with no limit on the number of digits (see Setup.ParseInt under Left out) |
| Setup.IntReply | main.py:77-91 | a non-blank line is accepted exactly when it parses as an integer within the bounds, and then as that integer |
| Setup.PromptInt | main.py:72-91 | `prompt_int` answers with the first accepted line, every earlier line being non-blank and rejected; a blank first line gives the default at once |
| Setup.IntReplyInBounds | main.py:72-91 | a typed number is accepted only within the bounds; a blank line, and only a blank line, gives the default |
| Setup.IntReplyAcceptsInBounds | main.py:72-91 | every number within the bounds, typed in decimal, is accepted as itself |

## Left out

- Browser I/O: Playwright calls, navigation (`safe_goto`, `go_to_posts_all`, `select_all_tab`, `scroll_to_top`, `get_posts_url`), waits and `polite_sleep` become oracle answers or are dropped, because they carry no decision logic.
- Timeouts passed to `is_visible` and `click` are dropped; a probe answers once, and an exception counts as "not visible" or "click failed".
- Links.Before: coordinates are whole numbers already; Python's `round()` of float positions (half to even) is not modelled.
- Strings.Lower: only ASCII letters are lower-cased; the script compares the result only with ASCII words.
- Setup.ParseInt: `int()` is modelled for ASCII digits with an optional sign and single underscores between digits; other Unicode decimal digits are not modelled. The model sets no limit on the number of digits, while Python 3.11 and later refuse, by default, text of more than 4300 digits (`sys.get_int_max_str_digits`), on which `prompt_int` would ask again.
- Drivers.Verify: the text and URL sniffing of the menu path's verification is an oracle (`earlySignal`, `recheck`); which page contents trigger it is not modelled.
- Drivers.ImageDriver: the logged messages and the wait before Cancel are not modelled; only the reply and the clicks are.
- RunLoop.Run: Ctrl+C is modelled only as the observations running out (`Interrupted`); the cleanup in `finally` is not modelled.
- Setup.ExtractUsername: reading and parsing the JSON file is not modelled; it takes the `origin` strings and cookie `domain` strings already extracted, and a malformed file (which the script turns into `None`) is not represented.
- Configuration files, `do_login`, `interactive_setup`, `print_banner`, `find_storage_files` and browser launch options are left out as I/O and user interaction.
- The messages printed by `prompt_yes_no` and `prompt_int` are left out; a re-prompt is modelled as moving to the next input line.

## Findings

| source | as written | input that shows it | evidently intended | confidence | as-written member | corrected member |
|---|---|---|---|---|---|---|
| main.py:526-537 | the two `'role'` tuples unpack to `args == ['button', <name>]` and the lookup passes `args[0]`, so both ask for a button named "button" | a dialog whose "Delete Post Only" control is found only by its role name is left unconfirmed, and any other visible button whose name contains "button" is clicked instead | look up the role buttons by "Delete Post Only" and "Delete Post" | medium, not executed | Drivers.ConfirmAsWritten | Drivers.ConfirmAsIntended |
| main.py:37-41 | a name taken from an origin is returned without the `www`/`i`/`api`/`m` filter that the cookies pass applies at line 50 | a storage state whose origins include `https://www.imgur.com` yields the username `www` | filter origin names against the same reserved hosts, so that a non-user subdomain is never taken as a username | low, not executed | Setup.OriginsAreNotFiltered | Setup.ExtractUsernameUnreserved |

Both findings leave the model as the code is written: `Drivers.DeletePostContainer`
runs the confirmation list with the two lookups of a button named "button", and
`Setup.ExtractUsername` returns origin names unfiltered. The corrected halves
state the intended behaviour beside them.

=== FILE: classify.dfy ===
/**
 * The post classifier of `delete_one`: an href is an album, a single image or
 * anything else, judged from its shape alone.
 */
module PostKinds {
  import opened Strings

  datatype PostKind = Image | Album | Other

  /**
   * `is_album`: the href starts with `/a/` or `/gallery/`, that is, its first
   * path segment is `a` or `gallery` and another segment follows.
   */
  predicate IsAlbum(h: string)
    ensures IsAlbum(h) <==>
      |h| > 0 && h[0] == '/' && '/' in h[1..] && BeforeFirst(h[1..], '/') in {"a", "gallery"}
  {
    if |h| > 0 && h[0] == '/' then
      FirstSegmentIs(h[1..], "a", '/');
      FirstSegmentIs(h[1..], "gallery", '/');
      StartsWithCons(h, '/', "a/");
      StartsWithCons(h, '/', "gallery/");
      assert "a" + ['/'] == "a/" && "gallery" + ['/'] == "gallery/";
      StartsWith(h, "/a/") || StartsWith(h, "/gallery/")
    else
      false
  }

  /**
   * `is_image`: the href contains `/image/`, or it is a rooted path whose last
   * segment has seven characters and which is not an album. An album is an image
   * only through `/image/`, and a bare-id image href is at least eight long.
   */
  predicate IsImage(h: string)
    ensures Contains(h, "/image/") ==> IsImage(h)
    ensures IsAlbum(h) ==> (IsImage(h) <==> Contains(h, "/image/"))
    ensures IsImage(h) && !Contains(h, "/image/") ==> |h| >= 8 && h[0] == '/'
  {
    Contains(h, "/image/") || (StartsWith(h, "/") && |LastSegment(h)| == 7 && !IsAlbum(h))
  }

  /** The dispatch of `delete_one`: the image test is made before the album test. */
  function Classify(h: string): (k: PostKind)
    ensures k == Image <==> IsImage(h)
    ensures k == Album <==> IsAlbum(h) && !Contains(h, "/image/")
    ensures k == Other <==> !IsAlbum(h) && !IsImage(h)
  {
    if IsImage(h) then Image
    else if IsAlbum(h) then Album
    else Other
  }

  /** `/image/` anywhere wins, even over an album prefix. */
  lemma ImageSubstringWins(h: string)
    requires Contains(h, "/image/")
    ensures Classify(h) == Image
  {
  }

  /**
   * An album-prefixed href is dispatched as an album unless it contains `/image/`:
   * the seven-character rule never turns an album into an image.
   */
  lemma AlbumPrefixIsAlbum(h: string)
    requires StartsWith(h, "/a/") || StartsWith(h, "/gallery/")
    ensures Classify(h) == Album <==> !Contains(h, "/image/")
  {
  }

  /** Without `/image/` and without an album prefix, a seven-character last segment decides. */
  lemma SevenCharacterIds(h: string)
    requires !Contains(h, "/image/") && !StartsWith(h, "/a/") && !StartsWith(h, "/gallery/")
    ensures Classify(h) == Image <==> StartsWith(h, "/") && |LastSegment(h)| == 7
    ensures Classify(h) == Other <==> !(StartsWith(h, "/") && |LastSegment(h)| == 7)
  {
  }

  /** Example: `/a/123` is an album. */
  lemma ShortAlbumExample()
    ensures Classify("/a/123") == Album
  {
    var h := "/a/123";
    assert StartsWith(h, "/a/");
    assert 'm' in "/image/" && 'm' !in h;
    MissingCharRulesOut(h, "/image/", 'm');
    assert IsAlbum(h) && !IsImage(h);
  }

  /** Example: `/gallery/abcDE` is an album. */
  lemma GalleryExample()
    ensures Classify("/gallery/abcDE") == Album
  {
    var h := "/gallery/abcDE";
    assert StartsWith(h, "/gallery/");
    assert 'm' in "/image/" && 'm' !in h;
    MissingCharRulesOut(h, "/image/", 'm');
    assert IsAlbum(h) && !IsImage(h);
  }

  /** Example: a seven-character album id stays an album. */
  lemma SevenCharacterAlbumExample()
    ensures Classify("/a/AbCdEfG") == Album
  {
    var h := "/a/AbCdEfG";
    assert StartsWith(h, "/a/");
    assert 'm' in "/image/" && 'm' !in h;
    MissingCharRulesOut(h, "/image/", 'm');
    assert IsAlbum(h) && !IsImage(h);
  }

  /** Example: `/image/xyz` is an image. */
  lemma ImagePathExample()
    ensures Classify("/image/xyz") == Image
  {
    ContainsAt("/image/xyz", "/image/", 0);
  }

  /** Example: the bare seven-character id `/AbCdEfG` is an image. */
  lemma BareIdExample()
    ensures Classify("/AbCdEfG") == Image
  {
    var h := "/AbCdEfG";
    assert h[1..] == "AbCdEfG";
    LastSegmentAfter(h, 0);
    assert StartsWith(h, "/");
    assert !StartsWith(h, "/a/") by { assert h[..3][1] == 'A'; }
    assert !StartsWith(h, "/gallery/");
    assert IsImage(h);
  }

  /** Example: `/image/` inside an album path takes the image branch. */
  lemma ImageInsideAlbumExample()
    ensures Classify("/gallery/x/image/y") == Image
  {
    ContainsAt("/gallery/x/image/y", "/image/", 10);
  }

  /** Example: a post path with a short last segment goes to the menu branch. */
  lemma OtherExample()
    ensures Classify("/post/abc") == Other
  {
    var h := "/post/abc";
    assert 'm' in "/image/" && 'm' !in h;
    MissingCharRulesOut(h, "/image/", 'm');
    assert h[6..] == "abc";
    LastSegmentAfter(h, 5);
    assert !StartsWith(h, "/a/") by { assert h[..3][1] == 'p'; }
    assert !StartsWith(h, "/gallery/") by { assert h[..9][1] == 'p'; }
    assert |LastSegment(h)| == 3;
    assert !IsImage(h) && !IsAlbum(h);
  }
}

=== FILE: drivers.dfy ===
/**
 * The deletion drivers of `delete_one`, with every browser call replaced by an
 * oracle answer. A driver stage is an ordered list of selectors tried with
 * `safe_click` until one succeeds; a driver returns a `(success, imagesDeleted)`
 * outcome and the list of clicks it actually performed.
 */
module Drivers {
  import opened Wrappers
  import opened Strings
  import opened PostKinds

  /** What the browser answers about one locator: is it visible, and does a click on it go through. */
  datatype Probe = Probe(visible: bool, clickOk: bool)

  /** A page at one stage of a driver: the answer for each selector it may be asked about. */
  type View = map<string, Probe>

  /** A selector the page does not answer for locates nothing. */
  function Lookup(v: View, selector: string): Probe {
    if selector in v then v[selector] else Probe(false, false)
  }

  /** The on-page controls a driver can click. */
  datatype Control =
    | DeleteImageButton   // "Delete image" on an image page
    | CancelButton        // "Cancel" in the dialog it opens
    | YesDeleteIt         // "Yes, Delete It" in that dialog
    | DeletePostButton    // "Delete post" on an album page
    | DeletePostConfirm   // whatever the confirmation list of that dialog locates
    | MoreOptions         // the overflow ("...") menu
    | DeleteImageItem     // "Delete image" in that menu
    | DeleteFromAccount   // "Delete from account" in the dialog it opens
    | ConfirmButton       // a final "Delete" / "Confirm"

  /** The reply of `delete_one`. */
  datatype Outcome = Outcome(success: bool, imagesDeleted: nat)

  const Deleted := Outcome(true, 1)
  const Ungrouped := Outcome(true, 0)
  const Failed := Outcome(false, 0)

  /** The three replies `delete_one` can give. */
  predicate AllowedShape(o: Outcome) {
    o == Deleted || o == Ungrouped || o == Failed
  }

  // ---------------------------------------------------------------------------
  // safe_click and the probe-and-fallback stages

  datatype Attempt = Attempt(ok: bool, clicks: seq<Control>)

  /** Whether `safe_click` reports success on a probe. */
  predicate Works(p: Probe, dryRun: bool) {
    p.visible && (dryRun || p.clickOk)
  }

  /**
   * `safe_click`: a visible element is clicked, except in dry-run, where success
   * is reported without clicking; a click that throws is reported as failure.
   */
  function SafeClick(p: Probe, dryRun: bool, c: Control): (r: Attempt)
    ensures r.ok <==> Works(p, dryRun)
    ensures dryRun ==> r.ok == p.visible && r.clicks == []
    ensures !dryRun ==> r.clicks == (if p.visible then [c] else [])
  {
    if !p.visible then Attempt(false, [])
    else if dryRun then Attempt(true, [])
    else Attempt(p.clickOk, [c])
  }

  datatype StageResult = StageResult(chosen: Option<nat>, clicks: seq<Control>)

  /** Some selector of the list makes `safe_click` succeed. */
  predicate StageFinds(v: View, selectors: seq<string>, dryRun: bool) {
    exists i :: 0 <= i < |selectors| && Works(Lookup(v, selectors[i]), dryRun)
  }

  /**
   * One driver stage: `safe_click` on each selector in order, stopping at the
   * first that succeeds.
   */
  function FirstSuccess(v: View, selectors: seq<string>, dryRun: bool, c: Control): (r: StageResult)
    ensures r.chosen.Some? ==>
      && r.chosen.value < |selectors|
      && Works(Lookup(v, selectors[r.chosen.value]), dryRun)
      && forall j :: 0 <= j < r.chosen.value ==> !Works(Lookup(v, selectors[j]), dryRun)
    ensures r.chosen.Some? <==> StageFinds(v, selectors, dryRun)
    ensures dryRun ==> r.clicks == []
    ensures forall x :: x in r.clicks ==> x == c
    ensures |r.clicks| <= |selectors|
  {
    if |selectors| == 0 then StageResult(None, [])
    else
      var first := SafeClick(Lookup(v, selectors[0]), dryRun, c);
      if first.ok then StageResult(Some(0), first.clicks)
      else
        var rest := FirstSuccess(v, selectors[1..], dryRun, c);
        assert forall j :: 1 <= j < |selectors| ==> selectors[j] == selectors[1..][j - 1];
        StageResult(if rest.chosen.Some? then Some(rest.chosen.value + 1) else None,
                    first.clicks + rest.clicks)
  }

  // ---------------------------------------------------------------------------
  // The selector lists of main.py, in the order they are tried

  const CancelSelectors: seq<string> := [
    "button:has-text(\"Cancel\")", "text=\"Cancel\"", "[role=\"button\"]:has-text(\"Cancel\")",
    "button[aria-label*=\"Cancel\" i]", "button:has-text(\"Close\")",
    "[role=\"dialog\"] button:has-text(\"Cancel\")",
    "role=button[name=/Cancel/i]"]

  const DeletePostSelectors: seq<string> := [
    "button:has-text(\"Delete post\")", "text=\"Delete post\"",
    "[role=\"button\"]:has-text(\"Delete post\")", "button[aria-label*=\"Delete post\" i]",
    "a:has-text(\"Delete post\")", "*:has-text(\"Delete post\"):visible",
    "role=button[name=/Delete post/i]"]

  /** The locator `get_by_role('button', name='button')`: any button whose name contains "button". */
  const ButtonNamedButton := "role=button[name=\"button\"]"
  const PostOnlyRole := "role=button[name=\"Delete Post Only\"]"
  const PostRole := "role=button[name=\"Delete Post\"]"

  /**
   * The confirmation list as main.py runs it. Its two `'role'` tuples unpack to
   * `args == ['button', <name>]`, and the lookup uses `args[0]`, so both look up
   * a button named "button".
   */
  const PostConfirmSelectors: seq<string> := [
    ButtonNamedButton, ButtonNamedButton,
    "button:has-text(\"Delete Post Only\")", "button:has-text(\"Delete Post\")"]

  /** The same list with the role lookups by the names the tuples carry. */
  const IntendedPostConfirmSelectors: seq<string> := [
    PostOnlyRole, PostRole,
    "button:has-text(\"Delete Post Only\")", "button:has-text(\"Delete Post\")"]

  const MoreOptionsSelectors: seq<string> := [
    "button[aria-label*=\"more\" i]", "button[aria-label*=\"More\" i]",
    "button[aria-label*=\"options\" i]", "[aria-label*=\"more options\" i]",
    "button:has([class*=\"more\"])", "button:has([class*=\"menu\"])",
    "button:has([class*=\"dots\"])", "[role=\"button\"]:has([class*=\"more\"])",
    "button:has-text(\"⋯\")", "button:has-text(\"...\")"]

  const DeleteImageItemSelectors: seq<string> := [
    "text=\"Delete image\"", "button:has-text(\"Delete image\")",
    "[role=\"menuitem\"]:has-text(\"Delete image\")", "[role=\"menu\"] button:has-text(\"Delete image\")",
    "a:has-text(\"Delete image\")", "*:has-text(\"Delete image\"):visible",
    "role=menuitem[name=/Delete image/i]"]

  const DeleteFromAccountSelectors: seq<string> := [
    "button.DeleteImageDialog-confirm--accountRemove", "button:has-text(\"Delete from account\")",
    "text=\"Delete from account\"", "[role=\"dialog\"] button:has-text(\"Delete from account\")",
    "button[aria-label*=\"Delete from account\" i]", "[role=\"dialog\"] button:has([class*=\"red\"])",
    "[role=\"dialog\"] button:has([class*=\"danger\"])",
    "role=button[name=/Delete from account/i]"]

  const ConfirmSelectors: seq<string> := [
    "button:has-text(\"Yes, Delete It\")", "button:has-text(\"Delete\")",
    "button:has-text(\"Confirm\")", "button[data-action=\"confirm\"]",
    "[role=\"dialog\"] button:has-text(\"Delete\")", "[role=\"dialog\"] button:has-text(\"Confirm\")",
    "role=button[name=/Yes, Delete It/i]", "role=button[name=/Delete/i]",
    "role=button[name=/Confirm/i]"]

  // ---------------------------------------------------------------------------
  // The page a driver works on

  /** The last check of the menu driver, re-loading the post (main.py 899-918). */
  datatype Recheck =
    | Gone          // a not-found page, or the load timed out
    | StillThere    // no not-found text and still at the post's URL
    | Inconclusive  // somewhere else, or another error

  /**
   * The heuristic verification of the menu driver: `earlySignal` is the text and
   * URL sniffing done when no confirmation button was found.
   */
  datatype Verification = Verification(earlySignal: bool, recheck: Recheck)

  /** A button found by the fallback scan, with its `aria-label`. */
  datatype MenuButton = MenuButton(ariaLabel: string, probe: Probe)

  /** Everything a driver can observe on one post page, stage by stage. */
  datatype PostPage = PostPage(
    deleteImage: Probe,         // the "Delete image" role button of an image page
    cancel: View,               // the dialog it opens, dry-run
    yesDeleteIt: Probe,         // the "Yes, Delete It" role button of that dialog
    menuGlyphs: nat,            // "..." texts counted on an album page, for logging only
    deletePost: View,           // an album page
    postConfirm: View,          // the dialog "Delete post" opens
    moreOptions: View,          // any other page
    buttons: seq<MenuButton>,   // all its buttons, for the fallback scan
    menu: View,                 // the overflow menu
    dialog: View,               // the dialog "Delete image" opens from the menu
    confirm: View,              // a final confirmation, if any
    verification: Verification)

  datatype DriverRun = DriverRun(outcome: Outcome, clicks: seq<Control>)

  // ---------------------------------------------------------------------------
  // Image driver (main.py 573-679)

  /**
   * Opens the delete dialog, then in dry-run dismisses it with Cancel and in live
   * mode confirms with "Yes, Delete It".
   */
  function ImageDriver(p: PostPage, dryRun: bool): (r: DriverRun)
    ensures r.outcome == Deleted || r.outcome == Failed
    ensures dryRun ==> (r.outcome == Deleted <==> p.deleteImage.visible && p.deleteImage.clickOk)
    ensures dryRun ==> forall c :: c in r.clicks ==> c == DeleteImageButton || c == CancelButton
    ensures !dryRun ==>
      (r.outcome == Deleted <==> Works(p.deleteImage, false) && Works(p.yesDeleteIt, false))
    ensures !dryRun && r.outcome == Deleted ==> r.clicks == [DeleteImageButton, YesDeleteIt]
  {
    var b := p.deleteImage;
    if !b.visible then DriverRun(Failed, [])
    else if dryRun then
      if !b.clickOk then DriverRun(Failed, [DeleteImageButton])
      else
        // the Cancel buttons are clicked directly, not through safe_click
        var cancel := FirstSuccess(p.cancel, CancelSelectors, false, CancelButton);
        DriverRun(Deleted, [DeleteImageButton] + cancel.clicks)
    else
      var open := SafeClick(b, false, DeleteImageButton);
      if !open.ok then DriverRun(Failed, open.clicks)
      else if !p.yesDeleteIt.visible then DriverRun(Failed, open.clicks)
      else
        var yes := SafeClick(p.yesDeleteIt, false, YesDeleteIt);
        DriverRun(if yes.ok then Deleted else Failed, open.clicks + yes.clicks)
  }

  /** In dry-run the image driver succeeds whether or not a Cancel control is found. */
  lemma DryRunIgnoresCancel(p: PostPage, v: View)
    ensures ImageDriver(p.(cancel := v), true).outcome == ImageDriver(p, true).outcome
  {
  }

  // ---------------------------------------------------------------------------
  // Album driver (main.py 472-552, 681-715)

  datatype ContainerRun = ContainerRun(initiated: bool, clicks: seq<Control>)

  /**
   * `delete_post_container`: click "Delete post", then try to confirm "post only".
   * Reports whether the first click succeeded; the confirmation only adds clicks.
   */
  function DeletePostContainer(p: PostPage, dryRun: bool): (r: ContainerRun)
    ensures r.initiated <==> StageFinds(p.deletePost, DeletePostSelectors, dryRun)
    ensures dryRun ==> r.clicks == []
    ensures !r.initiated ==> forall c :: c in r.clicks ==> c == DeletePostButton
  {
    var open := FirstSuccess(p.deletePost, DeletePostSelectors, dryRun, DeletePostButton);
    if open.chosen.None? then ContainerRun(false, open.clicks)
    else
      var confirm := FirstSuccess(p.postConfirm, PostConfirmSelectors, dryRun, DeletePostConfirm);
      ContainerRun(true, open.clicks + confirm.clicks)
  }

  /** The confirmation dialog has no say in what `delete_post_container` returns. */
  lemma ContainerIgnoresConfirmation(p: PostPage, v: View, dryRun: bool)
    ensures DeletePostContainer(p.(postConfirm := v), dryRun).initiated
         == DeletePostContainer(p, dryRun).initiated
  {
  }

  /** The confirmation stage depends on nothing but the answers for its own selectors. */
  lemma {:induction false} FirstSuccessIgnores(v: View, k: string, q: Probe, selectors: seq<string>, dryRun: bool, c: Control)
    requires k !in selectors
    ensures FirstSuccess(v[k := q], selectors, dryRun, c) == FirstSuccess(v, selectors, dryRun, c)
    decreases |selectors|
  {
    if |selectors| > 0 {
      assert Lookup(v[k := q], selectors[0]) == Lookup(v, selectors[0]);
      FirstSuccessIgnores(v, k, q, selectors[1..], dryRun, c);
    }
  }

  /**
   * As written, the confirmation never looks for the "Delete Post Only" role
   * button: a dialog offering only that is left unconfirmed, while any other
   * button whose name contains "button" is clicked first.
   */
  lemma ConfirmAsWritten(v: View, q: Probe, dryRun: bool)
    ensures FirstSuccess(v[PostOnlyRole := q], PostConfirmSelectors, dryRun, DeletePostConfirm)
         == FirstSuccess(v, PostConfirmSelectors, dryRun, DeletePostConfirm)
    ensures FirstSuccess(map[PostOnlyRole := Probe(true, true)], PostConfirmSelectors, false, DeletePostConfirm).chosen == None
    ensures FirstSuccess(map[ButtonNamedButton := Probe(true, true)], PostConfirmSelectors, false, DeletePostConfirm)
         == StageResult(Some(0), [DeletePostConfirm])
  {
    FirstSuccessIgnores(v, PostOnlyRole, q, PostConfirmSelectors, dryRun, DeletePostConfirm);
    var only: View := map[PostOnlyRole := Probe(true, true)];
    FirstSuccessIgnores(map[], PostOnlyRole, Probe(true, true), PostConfirmSelectors, false, DeletePostConfirm);
    assert map[][PostOnlyRole := Probe(true, true)] == only;
  }

  /**
   * With the intended names, a working "Delete Post Only" role button is the one
   * confirmed, and a button merely named "button" plays no part.
   */
  lemma ConfirmAsIntended(v: View, q: Probe, dryRun: bool)
    ensures Works(Lookup(v, PostOnlyRole), dryRun) ==>
      FirstSuccess(v, IntendedPostConfirmSelectors, dryRun, DeletePostConfirm).chosen == Some(0)
    ensures FirstSuccess(v[ButtonNamedButton := q], IntendedPostConfirmSelectors, dryRun, DeletePostConfirm)
         == FirstSuccess(v, IntendedPostConfirmSelectors, dryRun, DeletePostConfirm)
  {
    FirstSuccessIgnores(v, ButtonNamedButton, q, IntendedPostConfirmSelectors, dryRun, DeletePostConfirm);
  }

  /** Ungroups an album: never reports a deleted image. */
  function AlbumDriver(p: PostPage, dryRun: bool): (r: DriverRun)
    ensures r.outcome == Ungrouped || r.outcome == Failed
    ensures r.outcome.success <==> StageFinds(p.deletePost, DeletePostSelectors, dryRun)
    ensures dryRun ==> r.clicks == []
  {
    var c := DeletePostContainer(p, dryRun);
    DriverRun(if c.initiated then Ungrouped else Failed, c.clicks)
  }

  /** The counted "..." glyphs are only logged. */
  lemma AlbumIgnoresGlyphCount(p: PostPage, n: nat, dryRun: bool)
    ensures AlbumDriver(p.(menuGlyphs := n), dryRun) == AlbumDriver(p, dryRun)
  {
  }

  // ---------------------------------------------------------------------------
  // Menu driver (main.py 716-924)

  /** The fallback scan's test on an `aria-label`, after lower-casing. */
  predicate MenuLabel(text: string) {
    var l := Lower(text);
    Contains(l, "more") || Contains(l, "menu") || Contains(l, "options")
  }

  predicate ScanPicks(b: MenuButton, dryRun: bool) {
    MenuLabel(b.ariaLabel) && Works(b.probe, dryRun)
  }

  /** The fallback scan over all buttons: the first menu-like one that `safe_click` accepts. */
  function ScanButtons(buttons: seq<MenuButton>, dryRun: bool): (r: StageResult)
    ensures r.chosen.Some? ==>
      && r.chosen.value < |buttons|
      && ScanPicks(buttons[r.chosen.value], dryRun)
      && forall j :: 0 <= j < r.chosen.value ==> !ScanPicks(buttons[j], dryRun)
    ensures r.chosen.None? <==> forall j :: 0 <= j < |buttons| ==> !ScanPicks(buttons[j], dryRun)
    ensures dryRun ==> r.clicks == []
    ensures forall x :: x in r.clicks ==> x == MoreOptions
  {
    if |buttons| == 0 then StageResult(None, [])
    else if !MenuLabel(buttons[0].ariaLabel) then
      var rest := ScanButtons(buttons[1..], dryRun);
      assert forall j :: 1 <= j < |buttons| ==> buttons[j] == buttons[1..][j - 1];
      StageResult(if rest.chosen.Some? then Some(rest.chosen.value + 1) else None, rest.clicks)
    else
      var first := SafeClick(buttons[0].probe, dryRun, MoreOptions);
      if first.ok then StageResult(Some(0), first.clicks)
      else
        var rest := ScanButtons(buttons[1..], dryRun);
        assert forall j :: 1 <= j < |buttons| ==> buttons[j] == buttons[1..][j - 1];
        StageResult(if rest.chosen.Some? then Some(rest.chosen.value + 1) else None,
                    first.clicks + rest.clicks)
  }

  /** The overflow menu opens through a selector or, failing all, through the scan. */
  predicate MenuOpens(p: PostPage, dryRun: bool) {
    StageFinds(p.moreOptions, MoreOptionsSelectors, dryRun)
    || exists j :: 0 <= j < |p.buttons| && ScanPicks(p.buttons[j], dryRun)
  }

  /**
   * The verification after "Delete from account": success unless the re-loaded
   * post is still there, where an early signal counts only when no confirmation
   * was found (clicked, outside dry-run).
   */
  function Verify(confirmed: bool, v: Verification): (o: Outcome)
    ensures o == Deleted || o == Failed
    ensures o == Failed <==> v.recheck == StillThere && (confirmed || !v.earlySignal)
  {
    if !confirmed && v.earlySignal then Deleted
    else if v.recheck == StillThere then Failed
    else Deleted
  }

  /**
   * Overflow menu, "Delete image", "Delete from account", an optional final
   * confirmation, then the heuristic verification.
   */
  function MenuDriver(p: PostPage, dryRun: bool): (r: DriverRun)
    ensures r.outcome == Deleted || r.outcome == Failed
    ensures r.outcome == Deleted ==>
      && MenuOpens(p, dryRun)
      && StageFinds(p.menu, DeleteImageItemSelectors, dryRun)
      && StageFinds(p.dialog, DeleteFromAccountSelectors, dryRun)
    ensures
      (&& MenuOpens(p, dryRun)
       && StageFinds(p.menu, DeleteImageItemSelectors, dryRun)
       && StageFinds(p.dialog, DeleteFromAccountSelectors, dryRun)) ==>
      r.outcome == Verify(StageFinds(p.confirm, ConfirmSelectors, dryRun), p.verification)
    ensures dryRun ==> r.clicks == []
  {
    var more := FirstSuccess(p.moreOptions, MoreOptionsSelectors, dryRun, MoreOptions);
    var scan := if more.chosen.Some? then StageResult(None, []) else ScanButtons(p.buttons, dryRun);
    var clicks := more.clicks + scan.clicks;
    if more.chosen.None? && scan.chosen.None? then DriverRun(Failed, clicks)
    else
      var item := FirstSuccess(p.menu, DeleteImageItemSelectors, dryRun, DeleteImageItem);
      if item.chosen.None? then DriverRun(Failed, clicks + item.clicks)
      else
        var account := FirstSuccess(p.dialog, DeleteFromAccountSelectors, dryRun, DeleteFromAccount);
        if account.chosen.None? then DriverRun(Failed, clicks + item.clicks + account.clicks)
        else
          var confirm := FirstSuccess(p.confirm, ConfirmSelectors, dryRun, ConfirmButton);
          DriverRun(Verify(confirm.chosen.Some?, p.verification),
                    clicks + item.clicks + account.clicks + confirm.clicks)
  }

  // ---------------------------------------------------------------------------
  // delete_one

  /** Classify the href, then run the matching driver. */
  function DeleteOne(href: string, dryRun: bool, p: PostPage): (r: DriverRun)
    ensures AllowedShape(r.outcome)
    ensures Classify(href) == Album ==> r.outcome.imagesDeleted == 0
    ensures r.outcome == Ungrouped ==> Classify(href) == Album
    ensures dryRun ==> forall c :: c in r.clicks ==> c == DeleteImageButton || c == CancelButton
  {
    match Classify(href)
    case Image => ImageDriver(p, dryRun)
    case Album => AlbumDriver(p, dryRun)
    case Other => MenuDriver(p, dryRun)
  }

  /** Dry-run on an image page: success exactly when "Delete image" could be clicked. */
  lemma DryRunImageOutcome(href: string, p: PostPage)
    requires Classify(href) == Image
    ensures DeleteOne(href, true, p).outcome ==
      (if p.deleteImage.visible && p.deleteImage.clickOk then Deleted else Failed)
  {
  }
}

=== FILE: links.dfy ===
/**
 * The geometry-ordered link extractor (`find_post_links_sorted`): from the anchors
 * of the rendered grid it keeps the visible post links, orders them row-major by
 * their on-screen position and drops repeated hrefs, keeping the first.
 */
module Links {
  import opened Wrappers
  import opened Strings

  /** Top-left corner of an anchor's bounding box, already rounded to whole pixels. */
  datatype Box = Box(x: int, y: int)

  /**
   * One `<a>` element as the browser reports it: its raw `href` attribute, whether
   * the engine considers it visible, and its bounding box (absent when detached).
   */
  datatype Anchor = Anchor(rawHref: string, visible: bool, box: Option<Box>)

  /** One extracted post link: normalized href and position. */
  datatype PostLink = PostLink(href: string, x: int, y: int)

  /** Paths that are never posts, even when they look like one (main.py `BAD_PREFIXES`). */
  const BadPrefixes: seq<string> :=
    ["/upload", "/notifications", "/settings", "/account/",
     "/user/", "/t/", "/topics", "/privacy", "/terms", "/arcade"]

  /** The CSS selector the anchors are queried with, as a test on the raw href. */
  predicate InSelector(raw: string) {
    || StartsWith(raw, "/gallery/") || StartsWith(raw, "/a/") || StartsWith(raw, "/post/")
    || StartsWith(raw, "/image/") || (StartsWith(raw, "/") && Contains(raw, "/"))
  }

  /** Drops the fragment, then the query string. */
  function Normalize(raw: string): (h: string)
    ensures StartsWith(raw, h)
    ensures '#' !in h && '?' !in h
    ensures |h| == |raw| || raw[|h|] == '#' || raw[|h|] == '?'
  {
    var noFragment := BeforeFirst(raw, '#');
    var h := BeforeFirst(noFragment, '?');
    assert h == noFragment[..|h|];
    h
  }

  predicate HasBadPrefix(h: string) {
    exists i :: 0 <= i < |BadPrefixes| && StartsWith(h, BadPrefixes[i])
  }

  /** The four fixed alternatives of `POST_HREF_PAT`, with their leading `/`. */
  const PostPrefixes: seq<string> := ["/gallery/", "/a/", "/post/", "/image/"]

  /** The last alternative of `POST_HREF_PAT`: five letters or digits right after the `/`. */
  predicate AlnumHead(h: string) {
    |h| >= 6 && h[0] == '/' && forall i :: 1 <= i <= 5 ==> IsAsciiAlnum(h[i])
  }

  /**
   * main.py `POST_HREF_PAT`: `^/(gallery/|a/|post/|image/|[A-Za-z0-9]{5,})`. Read
   * by segments: the first segment is one of the four names and another follows,
   * or the path opens with five letters or digits.
   */
  predicate MatchesPostPattern(h: string)
    ensures MatchesPostPattern(h) <==>
      || (|h| > 0 && h[0] == '/' && '/' in h[1..] && BeforeFirst(h[1..], '/') in {"gallery", "a", "post", "image"})
      || AlnumHead(h)
  {
    if |h| > 0 && h[0] == '/' then
      var rest := h[1..];
      FirstSegmentIs(rest, "gallery", '/');
      FirstSegmentIs(rest, "a", '/');
      FirstSegmentIs(rest, "post", '/');
      FirstSegmentIs(rest, "image", '/');
      assert "gallery" + ['/'] == "gallery/" && "a" + ['/'] == "a/";
      assert "post" + ['/'] == "post/" && "image" + ['/'] == "image/";
      assert (|rest| >= 5 && forall i :: 0 <= i < 5 ==> IsAsciiAlnum(rest[i])) <==> AlnumHead(h) by {
        if |rest| >= 5 {
          assert forall i :: 0 <= i < 5 ==> rest[i] == h[i + 1];
        }
      }
      || StartsWith(rest, "gallery/") || StartsWith(rest, "a/") || StartsWith(rest, "post/")
      || StartsWith(rest, "image/")
      || (|rest| >= 5 && forall i :: 0 <= i < 5 ==> IsAsciiAlnum(rest[i]))
    else
      false
  }

  /**
   * The three tests a normalized href must pass. No bad prefix shares a first
   * segment with the four fixed alternatives, so `BAD_PREFIXES` only ever rejects
   * paths that open with five letters or digits.
   */
  predicate IsPostHref(h: string)
    ensures IsPostHref(h) <==>
      (exists i :: 0 <= i < |PostPrefixes| && StartsWith(h, PostPrefixes[i]))
      || (AlnumHead(h) && !HasBadPrefix(h))
  {
    PatternAlternatives(h);
    PostPrefixesAreGood(h);
    StartsWith(h, "/") && !HasBadPrefix(h) && MatchesPostPattern(h)
  }

  /** `POST_HREF_PAT` is one of the four fixed prefixes, or five letters or digits. */
  lemma PatternAlternatives(h: string)
    ensures MatchesPostPattern(h) <==>
      (exists i :: 0 <= i < |PostPrefixes| && StartsWith(h, PostPrefixes[i])) || AlnumHead(h)
  {
    if |h| > 0 && h[0] == '/' {
      var rest := h[1..];
      StartsWithCons(h, '/', "gallery/");
      StartsWithCons(h, '/', "a/");
      StartsWithCons(h, '/', "post/");
      StartsWithCons(h, '/', "image/");
      assert PostPrefixes[0] == ['/'] + "gallery/" && PostPrefixes[1] == ['/'] + "a/";
      assert PostPrefixes[2] == ['/'] + "post/" && PostPrefixes[3] == ['/'] + "image/";
      if |rest| >= 5 {
        assert forall i :: 0 <= i < 5 ==> rest[i] == h[i + 1];
      }
    } else {
      forall i | 0 <= i < |PostPrefixes| ensures !StartsWith(h, PostPrefixes[i]) {
        assert PostPrefixes[i][0] == '/';
      }
    }
  }

  /** A href with one of the four fixed prefixes matches the pattern and has no bad prefix. */
  lemma PostPrefixesAreGood(h: string)
    ensures forall i :: 0 <= i < |PostPrefixes| && StartsWith(h, PostPrefixes[i]) ==>
      StartsWith(h, "/") && !HasBadPrefix(h)
  {
    forall i | 0 <= i < |PostPrefixes| && StartsWith(h, PostPrefixes[i])
      ensures StartsWith(h, "/") && !HasBadPrefix(h)
    {
      var g := PostPrefixes[i];
      assert h[0] == g[0] && h[1] == g[1] && h[2] == g[2];
      assert h[1] == 'g' || h[1] == 'i' || (h[1] == 'a' && h[2] == '/') || (h[1] == 'p' && h[2] == 'o');
      forall j | 0 <= j < |BadPrefixes| ensures !StartsWith(h, BadPrefixes[j]) {
        var b := BadPrefixes[j];
        assert |b| >= 3 && b[1] != 'g' && b[1] != 'i';
        assert (b[1] == 'a' ==> b[2] != '/') && (b[1] == 'p' ==> b[2] != 'o');
      }
    }
  }

  /** Whether an anchor survives the collection loop. */
  predicate Accepted(a: Anchor) {
    a.visible && InSelector(a.rawHref) && IsPostHref(Normalize(a.rawHref)) && a.box.Some?
  }

  function LinkOf(a: Anchor): PostLink
    requires a.box.Some?
  {
    PostLink(Normalize(a.rawHref), a.box.value.x, a.box.value.y)
  }

  /** The selector adds nothing once the normalized href starts with `/`. */
  lemma SelectorIsImplied(raw: string)
    requires StartsWith(Normalize(raw), "/")
    ensures InSelector(raw)
  {
    var h := Normalize(raw);
    assert raw[..1] == h[..1];
    assert raw[0] == '/';
    ContainsAt(raw, "/", 0);
  }

  /** Five leading letters or digits are enough: `/randomPath123` is a post href. */
  lemma LongAlnumPathIsPostHref()
    ensures IsPostHref("/randomPath123")
  {
    var h := "/randomPath123";
    assert forall i :: 0 <= i < 5 ==> IsAsciiAlnum(h[1..][i]);
    assert h[1] == 'r';
    forall i | 0 <= i < |BadPrefixes| ensures !StartsWith(h, BadPrefixes[i]) {
      assert BadPrefixes[i][1] != 'r';
    }
  }

  /** The collection loop: accepted anchors as links, in document order. */
  function Collect(anchors: seq<Anchor>): (r: seq<PostLink>)
    ensures |r| <= |anchors|
    ensures forall a :: a in anchors && Accepted(a) ==> LinkOf(a) in r
    ensures forall l :: l in r ==> exists a :: a in anchors && Accepted(a) && LinkOf(a) == l
  {
    if |anchors| == 0 then []
    else
      var rest := Collect(anchors[1..]);
      assert forall a :: a in anchors[1..] ==> a in anchors;
      if Accepted(anchors[0]) then [LinkOf(anchors[0])] + rest else rest
  }

  /** What the collection loop makes of one anchor: its link, when accepted. */
  function Pick(a: Anchor): Option<PostLink> {
    if Accepted(a) then Some(LinkOf(a)) else None
  }

  function Picks(anchors: seq<Anchor>): (p: seq<Option<PostLink>>)
    ensures |p| == |anchors| && forall i :: 0 <= i < |p| ==> p[i] == Pick(anchors[i])
  {
    seq(|anchors|, i requires 0 <= i < |anchors| => Pick(anchors[i]))
  }

  /** The present values of `s`, in order. */
  function Somes<T>(s: seq<Option<T>>): seq<T> {
    if |s| == 0 then [] else (if s[0].Some? then [s[0].value] else []) + Somes(s[1..])
  }

  /**
   * `f` lists, in increasing order, exactly the positions where `s` holds a
   * value, and `r` holds those values in that order.
   */
  predicate Keeps<T(==)>(f: seq<nat>, s: seq<Option<T>>, r: seq<T>) {
    && |f| == |r|
    && (forall k :: 0 <= k < |f| ==> f[k] < |s| && s[f[k]] == Some(r[k]))
    && (forall k, l :: 0 <= k < l < |f| ==> f[k] < f[l])
    && (forall i :: 0 <= i < |s| && s[i].Some? ==> i in f)
  }

  lemma {:induction false} SomesInOrder<T>(s: seq<Option<T>>) returns (f: seq<nat>)
    ensures Keeps(f, s, Somes(s))
    decreases |s|
  {
    if |s| == 0 {
      f := [];
    } else {
      var r := Somes(s[1..]);
      var g := SomesInOrder(s[1..]);
      var shifted := ShiftKeeps(g, s, r);
      if s[0].Some? {
        f := TakeFirst(shifted, s, r);
        assert Somes(s) == [s[0].value] + r;
      } else {
        SkipFirst(shifted, s, r);
        f := shifted;
        assert Somes(s) == r;
      }
    }
  }

  /** The tail's positions, moved one step to make room for the first entry. */
  lemma ShiftKeeps<T>(g: seq<nat>, s: seq<Option<T>>, r: seq<T>) returns (f: seq<nat>)
    requires |s| > 0 && Keeps(g, s[1..], r)
    ensures |f| == |r|
    ensures forall k :: 0 <= k < |f| ==> 0 < f[k] < |s| && s[f[k]] == Some(r[k])
    ensures forall k, l :: 0 <= k < l < |f| ==> f[k] < f[l]
    ensures forall i :: 0 < i < |s| && s[i].Some? ==> i in f
  {
    f := seq(|g|, k requires 0 <= k < |g| => g[k] + 1);
    assert forall k :: 0 <= k < |g| ==> s[f[k]] == s[1..][g[k]];
    ShiftedCovers(g, f, s);
  }

  lemma ShiftedCovers<T>(g: seq<nat>, f: seq<nat>, s: seq<Option<T>>)
    requires |s| > 0 && |f| == |g| && forall k :: 0 <= k < |g| ==> f[k] == g[k] + 1
    requires forall i :: 0 <= i < |s| - 1 && s[1..][i].Some? ==> i in g
    ensures forall i :: 0 < i < |s| && s[i].Some? ==> i in f
  {
    forall i | 0 < i < |s| && s[i].Some? ensures i in f {
      assert s[1..][i - 1] == s[i];
      var k :| 0 <= k < |g| && g[k] == i - 1;
      assert f[k] == i;
    }
  }

  /** The shifted positions alone, when the first entry is empty. */
  lemma SkipFirst<T>(g: seq<nat>, s: seq<Option<T>>, r: seq<T>)
    requires |s| > 0 && s[0].None? && |g| == |r|
    requires forall k :: 0 <= k < |g| ==> 0 < g[k] < |s| && s[g[k]] == Some(r[k])
    requires forall k, l :: 0 <= k < l < |g| ==> g[k] < g[l]
    requires forall i :: 0 < i < |s| && s[i].Some? ==> i in g
    ensures Keeps(g, s, r)
  {
  }

  /** Position 0 in front of the shifted positions, when the first entry holds a value. */
  lemma TakeFirst<T>(g: seq<nat>, s: seq<Option<T>>, r: seq<T>) returns (f: seq<nat>)
    requires |s| > 0 && s[0].Some? && |g| == |r|
    requires forall k :: 0 <= k < |g| ==> 0 < g[k] < |s| && s[g[k]] == Some(r[k])
    requires forall k, l :: 0 <= k < l < |g| ==> g[k] < g[l]
    requires forall i :: 0 < i < |s| && s[i].Some? ==> i in g
    ensures Keeps(f, s, [s[0].value] + r)
  {
    f := [0] + g;
    assert forall k :: 1 <= k < |f| ==> f[k] == g[k - 1];
    assert forall i :: 0 < i < |s| && s[i].Some? ==> i in f;
  }

  /** The collection loop keeps exactly the anchors' picks. */
  lemma {:induction false} CollectIsSomes(anchors: seq<Anchor>)
    ensures Collect(anchors) == Somes(Picks(anchors))
    decreases |anchors|
  {
    if |anchors| > 0 {
      CollectIsSomes(anchors[1..]);
      assert Picks(anchors)[1..] == Picks(anchors[1..]);
    }
  }

  /**
   * The collection keeps document order and takes each accepted anchor once:
   * `f` lists the accepted anchors' positions, increasing, and the links are theirs.
   */
  lemma CollectInOrder(anchors: seq<Anchor>) returns (f: seq<nat>)
    ensures Keeps(f, Picks(anchors), Collect(anchors))
  {
    CollectIsSomes(anchors);
    f := SomesInOrder(Picks(anchors));
  }

  // ---------------------------------------------------------------------------
  // Row-major ordering

  /** `(y, x)` lexicographic order: `(round(y), round(x))` in the source. */
  predicate Before(a: PostLink, b: PostLink) {
    a.y < b.y || (a.y == b.y && a.x <= b.x)
  }

  predicate SameSpot(a: PostLink, x: int, y: int) {
    a.x == x && a.y == y
  }

  predicate Sorted(s: seq<PostLink>) {
    forall i, j :: 0 <= i < j < |s| ==> Before(s[i], s[j])
  }

  /** The links at one position, in order. */
  function At(s: seq<PostLink>, x: int, y: int): seq<PostLink> {
    if |s| == 0 then []
    else (if SameSpot(s[0], x, y) then [s[0]] else []) + At(s[1..], x, y)
  }

  /** Places `l` before the first link it precedes-or-ties, behind every strictly earlier one. */
  function Insert(l: PostLink, s: seq<PostLink>): seq<PostLink> {
    if |s| == 0 then [l]
    else if Before(l, s[0]) then [l] + s
    else [s[0]] + Insert(l, s[1..])
  }

  /** `list.sort(key=...)`: Python's sort is stable, and so is this insertion sort. */
  function SortByPosition(s: seq<PostLink>): seq<PostLink> {
    if |s| == 0 then [] else Insert(s[0], SortByPosition(s[1..]))
  }

  /** `Insert` adds exactly `l`. */
  lemma {:induction false} InsertPermutes(l: PostLink, s: seq<PostLink>)
    ensures multiset(Insert(l, s)) == multiset(s) + multiset{l}
    decreases |s|
  {
    if |s| > 0 && !Before(l, s[0]) {
      InsertPermutes(l, s[1..]);
      assert s == [s[0]] + s[1..];
    }
  }

  /** Inserting into a sorted list keeps it sorted. */
  lemma {:induction false} InsertSorted(l: PostLink, s: seq<PostLink>)
    requires Sorted(s)
    ensures Sorted(Insert(l, s))
    decreases |s|
  {
    if |s| == 0 {
    } else if Before(l, s[0]) {
      assert forall m :: m in s ==> Before(l, m);
      ConsSorted(l, s);
    } else {
      var rest := Insert(l, s[1..]);
      InsertSorted(l, s[1..]);
      InsertMembers(l, s[1..]);
      assert forall m :: m in s[1..] ==> Before(s[0], m);
      ConsSorted(s[0], rest);
    }
  }

  /** A link that precedes-or-ties every link of a sorted list can go in front of it. */
  lemma ConsSorted(a: PostLink, s: seq<PostLink>)
    requires Sorted(s)
    requires forall m :: m in s ==> Before(a, m)
    ensures Sorted([a] + s)
  {
    var r := [a] + s;
    forall i, j | 0 <= i < j < |r| ensures Before(r[i], r[j]) {
      assert r[j] == s[j - 1];
      if i > 0 {
        assert r[i] == s[i - 1];
      }
    }
  }

  /** `Insert` brings in no link but `l`. */
  lemma {:induction false} InsertMembers(l: PostLink, s: seq<PostLink>)
    ensures forall m :: m in Insert(l, s) ==> m == l || m in s
    decreases |s|
  {
    if |s| > 0 && !Before(l, s[0]) {
      InsertMembers(l, s[1..]);
    }
  }

  /** The sort is a permutation of its input, in `(y, x)` order. */
  lemma {:induction false} SortByPositionSorted(s: seq<PostLink>)
    ensures multiset(SortByPosition(s)) == multiset(s)
    ensures Sorted(SortByPosition(s))
  {
    SortByPositionPermutes(s);
    SortByPositionOrders(s);
  }

  lemma {:induction false} SortByPositionPermutes(s: seq<PostLink>)
    ensures multiset(SortByPosition(s)) == multiset(s)
    decreases |s|
  {
    if |s| > 0 {
      SortByPositionPermutes(s[1..]);
      InsertPermutes(s[0], SortByPosition(s[1..]));
      assert s == [s[0]] + s[1..];
    }
  }

  lemma {:induction false} SortByPositionOrders(s: seq<PostLink>)
    ensures Sorted(SortByPosition(s))
    decreases |s|
  {
    if |s| > 0 {
      SortByPositionOrders(s[1..]);
      InsertSorted(s[0], SortByPosition(s[1..]));
    }
  }

  lemma {:induction false} AtConcat(a: seq<PostLink>, b: seq<PostLink>, x: int, y: int)
    ensures At(a + b, x, y) == At(a, x, y) + At(b, x, y)
    decreases |a|
  {
    if |a| == 0 {
      assert a + b == b;
    } else {
      var c := a + b;
      var head: seq<PostLink> := if SameSpot(a[0], x, y) then [a[0]] else [];
      assert c[0] == a[0];
      assert c[1..] == a[1..] + b;
      AtConcat(a[1..], b, x, y);
      assert At(c, x, y) == head + At(c[1..], x, y);
      assert At(a, x, y) == head + At(a[1..], x, y);
      assert head + (At(a[1..], x, y) + At(b, x, y)) == (head + At(a[1..], x, y)) + At(b, x, y);
    }
  }

  lemma {:induction false} InsertKeepsTies(l: PostLink, s: seq<PostLink>, x: int, y: int)
    ensures At(Insert(l, s), x, y) == At([l], x, y) + At(s, x, y)
    decreases |s|
  {
    if |s| == 0 {
    } else if Before(l, s[0]) {
      AtConcat([l], s, x, y);
    } else {
      InsertKeepsTies(l, s[1..], x, y);
      AtConcat([s[0]], Insert(l, s[1..]), x, y);
      AtConcat([s[0]], s[1..], x, y);
      assert s == [s[0]] + s[1..];
    }
  }

  /** Stability: links sharing one position keep their input order. */
  lemma {:induction false} SortKeepsTies(s: seq<PostLink>, x: int, y: int)
    ensures At(SortByPosition(s), x, y) == At(s, x, y)
    decreases |s|
  {
    if |s| > 0 {
      SortKeepsTies(s[1..], x, y);
      InsertKeepsTies(s[0], SortByPosition(s[1..]), x, y);
      AtConcat([s[0]], s[1..], x, y);
      assert s == [s[0]] + s[1..];
    }
  }

  // ---------------------------------------------------------------------------
  // Keeping the first link per href

  function Hrefs(s: seq<PostLink>): set<string> {
    set l | l in s :: l.href
  }

  predicate DistinctHrefs(s: seq<PostLink>) {
    forall i, j :: 0 <= i < j < |s| ==> s[i].href != s[j].href
  }

  /** The first link of `s` whose href is `h`. */
  function FirstWith(s: seq<PostLink>, h: string): Option<PostLink> {
    if |s| == 0 then None
    else if s[0].href == h then Some(s[0])
    else FirstWith(s[1..], h)
  }

  /**
   * Reference definition of the de-duplication: a link is kept exactly when no
   * earlier link carries the same href.
   */
  function FirstOccurrences(s: seq<PostLink>): seq<PostLink> {
    if |s| == 0 then []
    else
      var init := s[..|s| - 1];
      FirstOccurrences(init) + (if s[|s| - 1].href in Hrefs(init) then [] else [s[|s| - 1]])
  }

  lemma HrefsSnoc(s: seq<PostLink>, l: PostLink)
    ensures Hrefs(s + [l]) == Hrefs(s) + {l.href}
  {
    assert forall m :: m in s + [l] <==> m in s || m == l;
  }

  lemma {:induction false} FirstWithSnoc(s: seq<PostLink>, l: PostLink, h: string)
    ensures FirstWith(s, h).Some? <==> h in Hrefs(s)
    ensures FirstWith(s + [l], h) ==
      if h in Hrefs(s) then FirstWith(s, h) else if l.href == h then Some(l) else None
    decreases |s|
  {
    if |s| == 0 {
      assert s + [l] == [l];
    } else {
      assert (s + [l])[1..] == s[1..] + [l];
      FirstWithSnoc(s[1..], l, h);
      assert s == [s[0]] + s[1..];
      assert forall m :: m in s <==> m == s[0] || m in s[1..];
    }
  }

  /** Every kept link comes from the input. */
  lemma {:induction false} FirstOccurrencesFromInput(s: seq<PostLink>)
    ensures forall l :: l in FirstOccurrences(s) ==> l in s
    decreases |s|
  {
    if |s| > 0 {
      FirstOccurrencesFromInput(s[..|s| - 1]);
      assert s == s[..|s| - 1] + [s[|s| - 1]];
    }
  }

  /** No href is lost and none is invented. */
  lemma {:induction false} FirstOccurrencesKeepsHrefs(s: seq<PostLink>)
    ensures Hrefs(FirstOccurrences(s)) == Hrefs(s)
    decreases |s|
  {
    if |s| > 0 {
      var init, last := s[..|s| - 1], s[|s| - 1];
      FirstOccurrencesKeepsHrefs(init);
      assert s == init + [last];
      HrefsSnoc(init, last);
      if last.href !in Hrefs(init) {
        HrefsSnoc(FirstOccurrences(init), last);
      }
    }
  }

  /** No href appears twice. */
  lemma {:induction false} FirstOccurrencesDistinct(s: seq<PostLink>)
    ensures DistinctHrefs(FirstOccurrences(s))
    decreases |s|
  {
    if |s| > 0 {
      var init, last := s[..|s| - 1], s[|s| - 1];
      FirstOccurrencesDistinct(init);
      FirstOccurrencesKeepsHrefs(init);
      var r := FirstOccurrences(init);
      if last.href !in Hrefs(init) {
        assert forall i :: 0 <= i < |r| ==> r[i] in r;
      }
    }
  }

  /** Each kept link is the first link of the input with its href. */
  lemma {:induction false} FirstOccurrencesAreFirst(s: seq<PostLink>)
    ensures forall i :: 0 <= i < |FirstOccurrences(s)| ==>
      FirstWith(s, FirstOccurrences(s)[i].href) == Some(FirstOccurrences(s)[i])
    decreases |s|
  {
    if |s| > 0 {
      var init, last := s[..|s| - 1], s[|s| - 1];
      FirstOccurrencesAreFirst(init);
      FirstOccurrencesKeepsHrefs(init);
      assert s == init + [last];
      var r := FirstOccurrences(init);
      var out := FirstOccurrences(s);
      forall i | 0 <= i < |out|
        ensures FirstWith(s, out[i].href) == Some(out[i])
      {
        FirstWithSnoc(init, last, out[i].href);
        if i < |r| {
          assert out[i] == r[i] && r[i] in r;
        }
      }
    }
  }

  /** Dropping repeats keeps a sorted sequence sorted. */
  lemma {:induction false} FirstOccurrencesSorted(s: seq<PostLink>)
    requires Sorted(s)
    ensures Sorted(FirstOccurrences(s))
    decreases |s|
  {
    if |s| > 0 {
      var init, last := s[..|s| - 1], s[|s| - 1];
      FirstOccurrencesSorted(init);
      FirstOccurrencesFromInput(init);
      var r := FirstOccurrences(init);
      forall m | m in r ensures Before(m, last) {
        var k :| 0 <= k < |init| && init[k] == m;
      }
      assert forall i :: 0 <= i < |r| ==> r[i] in r;
    }
  }

  /** `f` lists, in increasing order, the positions of `b` that make up `a`. */
  predicate Embeds(f: seq<nat>, a: seq<PostLink>, b: seq<PostLink>) {
    && |f| == |a|
    && (forall i :: 0 <= i < |f| ==> f[i] < |b| && a[i] == b[f[i]])
    && (forall i, j :: 0 <= i < j < |f| ==> f[i] < f[j])
  }

  /** `a` is `b` with some links left out, the rest in their order. */
  ghost predicate IsSubsequence(a: seq<PostLink>, b: seq<PostLink>) {
    exists f :: Embeds(f, a, b)
  }

  /** De-duplication only leaves links out: the kept ones stay in input order. */
  lemma {:induction false} FirstOccurrencesInOrder(s: seq<PostLink>) returns (f: seq<nat>)
    ensures Embeds(f, FirstOccurrences(s), s)
    decreases |s|
  {
    if |s| == 0 {
      f := [];
    } else {
      var init, last := s[..|s| - 1], s[|s| - 1];
      var g := FirstOccurrencesInOrder(init);
      f := g + (if last.href in Hrefs(init) then [] else [|s| - 1]);
      assert forall i :: 0 <= i < |g| ==> init[g[i]] == s[g[i]];
    }
  }

  /** The same, as a property. */
  lemma FirstOccurrencesSubsequence(s: seq<PostLink>)
    ensures IsSubsequence(FirstOccurrences(s), s)
  {
    var f := FirstOccurrencesInOrder(s);
  }

  /** What one more link adds to the first occurrences and to the hrefs met. */
  lemma FirstOccurrencesStep(s: seq<PostLink>, i: nat)
    requires i < |s|
    ensures FirstOccurrences(s[..i + 1]) ==
      FirstOccurrences(s[..i]) + (if s[i].href in Hrefs(s[..i]) then [] else [s[i]])
    ensures Hrefs(s[..i + 1]) == Hrefs(s[..i]) + {s[i].href}
  {
    assert s[..i + 1][..i] == s[..i];
    assert s[..i + 1] == s[..i] + [s[i]];
    HrefsSnoc(s[..i], s[i]);
  }

  /** The de-duplication loop of the source, with its `seen` set. */
  method DedupeByHref(s: seq<PostLink>) returns (ordered: seq<PostLink>)
    ensures ordered == FirstOccurrences(s)
    ensures DistinctHrefs(ordered) && Hrefs(ordered) == Hrefs(s)
  {
    var seen: set<string> := {};
    ordered := [];
    var i := 0;
    while i < |s|
      invariant 0 <= i <= |s|
      invariant ordered == FirstOccurrences(s[..i])
      invariant seen == Hrefs(s[..i])
    {
      FirstOccurrencesStep(s, i);
      if s[i].href !in seen {
        seen := seen + {s[i].href};
        ordered := ordered + [s[i]];
      }
      i := i + 1;
    }
    assert s[..|s|] == s;
    FirstOccurrencesDistinct(s);
    FirstOccurrencesKeepsHrefs(s);
  }

  // ---------------------------------------------------------------------------
  // The extractor

  /** The normalized hrefs of the anchors that survive filtering. */
  function AcceptedHrefs(anchors: seq<Anchor>): set<string> {
    set a | a in anchors && Accepted(a) :: Normalize(a.rawHref)
  }

  lemma SortKeepsMembers(s: seq<PostLink>)
    ensures forall l :: l in SortByPosition(s) <==> l in s
  {
    var r := SortByPosition(s);
    SortByPositionSorted(s);
    assert forall l :: l in r <==> l in multiset(r);
    assert forall l :: l in s <==> l in multiset(s);
  }

  lemma CollectHrefs(anchors: seq<Anchor>)
    ensures Hrefs(Collect(anchors)) == AcceptedHrefs(anchors)
    ensures forall l :: l in Collect(anchors) ==> IsPostHref(l.href) && '#' !in l.href && '?' !in l.href
  {
  }

  /** The extractor's result as a value, for the run loop. */
  function PostLinks(anchors: seq<Anchor>): seq<PostLink> {
    FirstOccurrences(SortByPosition(Collect(anchors)))
  }

  /** `find_post_links_sorted`: collect, sort by `(y, x)`, keep the first of each href. */
  method FindPostLinksSorted(anchors: seq<Anchor>) returns (links: seq<PostLink>)
    ensures links == PostLinks(anchors)
    ensures forall l :: l in links ==> IsPostHref(l.href) && '#' !in l.href && '?' !in l.href
    ensures Sorted(links)
    ensures DistinctHrefs(links)
    ensures Hrefs(links) == AcceptedHrefs(anchors)
    ensures forall i :: 0 <= i < |links| ==>
      FirstWith(SortByPosition(Collect(anchors)), links[i].href) == Some(links[i])
    ensures IsSubsequence(links, SortByPosition(Collect(anchors)))
  {
    var items := Collect(anchors);
    var sorted := SortByPosition(items);
    links := DedupeByHref(sorted);
    CollectHrefs(anchors);
    SortKeepsMembers(items);
    SortByPositionSorted(items);
    FirstOccurrencesFromInput(sorted);
    FirstOccurrencesSorted(sorted);
    FirstOccurrencesAreFirst(sorted);
    FirstOccurrencesSubsequence(sorted);
    assert Hrefs(sorted) == Hrefs(items);
  }
}

=== FILE: runloop.dfy ===
/**
 * The run loop of `main`: extract the grid's links, delete each one, count it,
 * and use the page's scroll height to tell whether scrolling loaded anything new.
 */
module RunLoop {
  import opened Links
  import opened Drivers

  /**
   * What one pass of the loop gets to see: the grid's anchors, the post page
   * behind each href, and the scroll height read at the end of the pass.
   */
  datatype Round = Round(grid: seq<Anchor>, pages: map<string, PostPage>, height: int)

  /** Why the run ended. */
  datatype Stop =
    | CapReached      // `processed >= max_to_process`
    | NoMoreContent   // the scroll height was one seen before
    | Interrupted     // the observations ran out, as when the user presses Ctrl+C

  /** A page on which nothing can be located. */
  const BlankPage := PostPage(
    Probe(false, false), map[], Probe(false, false), 0, map[], map[], map[], [],
    map[], map[], map[], Verification(false, Inconclusive))

  function PageAt(round: Round, href: string): PostPage {
    if href in round.pages then round.pages[href] else BlankPage
  }

  function Min(a: int, b: int): int {
    if a <= b then a else b
  }

  /**
   * What one `delete_one` reply adds to `processed`: the images deleted when
   * there were some, otherwise one attempt.
   */
  function Credit(o: Outcome): (n: nat)
    ensures n >= 1
    ensures AllowedShape(o) ==> n == 1
  {
    if o.success && o.imagesDeleted > 0 then o.imagesDeleted else 1
  }

  /** The reply of `delete_one` for one link of a pass. */
  function Reply(href: string, dryRun: bool, round: Round): (o: Outcome)
    ensures AllowedShape(o)
  {
    DeleteOne(href, dryRun, PageAt(round, href)).outcome
  }

  /**
   * The inner `for` loop: delete and count each link, stopping once the count
   * reaches the cap.
   */
  method ProcessLinks(start: nat, cap: int, dryRun: bool, links: seq<PostLink>, round: Round)
    returns (processed: nat)
    ensures processed >= start
    ensures start < cap ==> processed == start + Min(|links|, cap - start)
    ensures |links| == 0 ==> processed == start
  {
    processed := start;
    var i := 0;
    while i < |links|
      invariant 0 <= i <= |links|
      invariant processed == start + i
      invariant start < cap ==> processed < cap
    {
      var reply := Reply(links[i].href, dryRun, round);
      processed := processed + Credit(reply);
      i := i + 1;
      if processed >= cap {
        break;
      }
    }
  }

  /** The number of links the extractor yields over the first `n` passes. */
  function LinkTotal(rounds: seq<Round>, n: nat): nat
    requires n <= |rounds|
  {
    if n == 0 then 0 else LinkTotal(rounds, n - 1) + |PostLinks(rounds[n - 1].grid)|
  }

  /** The scroll heights read over the first `n` passes. */
  function Heights(rounds: seq<Round>, n: nat): set<int>
    requires n <= |rounds|
  {
    if n == 0 then {} else Heights(rounds, n - 1) + {rounds[n - 1].height}
  }

  /** `Heights` is the set of heights of the passes. */
  lemma {:induction false} HeightsAreReadHeights(rounds: seq<Round>, n: nat, h: int)
    requires n <= |rounds|
    ensures h in Heights(rounds, n) <==> exists i :: 0 <= i < n && rounds[i].height == h
  {
    if n > 0 {
      HeightsAreReadHeights(rounds, n - 1, h);
    }
  }

  /** None of the first `n` passes read a scroll height that an earlier pass had already read. */
  predicate FreshHeights(rounds: seq<Round>, n: nat)
    requires n <= |rounds|
  {
    n == 0 || (FreshHeights(rounds, n - 1) && rounds[n - 1].height !in Heights(rounds, n - 1))
  }

  /** `FreshHeights` says the first `n` heights are pairwise different. */
  lemma {:induction false} FreshHeightsDistinct(rounds: seq<Round>, n: nat)
    requires n <= |rounds|
    ensures FreshHeights(rounds, n) <==>
      forall i, j :: 0 <= i < j < n ==> rounds[i].height != rounds[j].height
  {
    if n > 0 {
      FreshHeightsDistinct(rounds, n - 1);
      HeightsAreReadHeights(rounds, n - 1, rounds[n - 1].height);
    }
  }

  /**
   * One pass of the `while` loop: extract the grid's links, delete them, then
   * read the scroll height. Below the cap, the count keeps pace with the links
   * met; the pass reports whether its height was read before.
   */
  method Pass(processed: nat, cap: int, dryRun: bool, rounds: seq<Round>, used: nat, seen: set<int>)
    returns (next: nat, nextSeen: set<int>, repeated: bool)
    requires used < |rounds|
    requires seen == Heights(rounds, used)
    ensures next >= processed
    ensures processed < cap && processed == Min(cap, LinkTotal(rounds, used)) ==>
      next == Min(cap, LinkTotal(rounds, used + 1))
    ensures repeated <==> rounds[used].height in Heights(rounds, used)
    ensures nextSeen == Heights(rounds, used + 1)
    ensures FreshHeights(rounds, used + 1) <==> FreshHeights(rounds, used) && !repeated
  {
    var round := rounds[used];
    var links := FindPostLinksSorted(round.grid);
    next := ProcessLinks(processed, cap, dryRun, links, round);
    repeated := round.height in seen;
    nextSeen := seen + {round.height};
  }

  /**
   * The `while processed < max_to_process` loop of `main`. `processed` ends as the
   * cap or the number of links met, whichever is smaller; `seen` holds every
   * height read; the first `novel` passes read new heights, and only a pass that
   * repeats one ends the run as `NoMoreContent`. No pass starts once the cap
   * is reached: `last`, the passes before the final one, met fewer links than the cap.
   */
  method Run(cap: int, dryRun: bool, rounds: seq<Round>)
    returns (processed: nat, seen: set<int>, used: nat, novel: nat, stop: Stop, ghost last: nat)
    ensures novel <= used <= |rounds|
    ensures processed == Min(if cap < 0 then 0 else cap, LinkTotal(rounds, used))
    ensures seen == Heights(rounds, used)
    ensures FreshHeights(rounds, novel)
    ensures stop != NoMoreContent ==> used == novel
    ensures stop == NoMoreContent ==> used == novel + 1 && rounds[novel].height in Heights(rounds, novel)
    ensures stop == CapReached ==> processed >= cap
    ensures stop == Interrupted ==> used == |rounds| && processed < cap
    ensures used > 0 ==> last + 1 == used && LinkTotal(rounds, last) < cap
  {
    var limit := if cap < 0 then 0 else cap;
    processed, seen, used, novel, stop := 0, {}, 0, 0, CapReached;
    last := 0;
    while processed < cap
      invariant used <= |rounds| && novel == used
      invariant used > 0 ==> last + 1 == used && LinkTotal(rounds, last) < cap
      invariant processed == Min(limit, LinkTotal(rounds, used))
      invariant seen == Heights(rounds, used)
      invariant FreshHeights(rounds, used)
      decreases |rounds| - used
    {
      if used == |rounds| {
        stop := Interrupted;
        return;
      }
      var repeated;
      last := used;
      assert LinkTotal(rounds, last) < cap;
      processed, seen, repeated := Pass(processed, cap, dryRun, rounds, used, seen);
      used := used + 1;
      if repeated {
        stop := NoMoreContent;
        return;
      }
      novel := used;
    }
  }
}

=== FILE: setup.dfy ===
/**
 * The small parsers of the interactive setup: the username guessed from a saved
 * browser session, and the replies accepted by `prompt_yes_no` and `prompt_int`.
 */
module Setup {
  import opened Wrappers
  import opened Strings

  // ---------------------------------------------------------------------------
  // extract_username_from_storage

  const Domain := ".imgur.com"
  const Scheme := "https://"

  /** Host names a cookie domain may carry that are never a user's. */
  const ReservedHosts: set<string> := {"www", "i", "api", "m"}

  /** Length of the run of non-`.` characters that starts at `i`. */
  function NonDotRun(s: string, i: nat): (n: nat)
    requires i <= |s|
    ensures i + n <= |s|
    ensures forall k :: i <= k < i + n ==> s[k] != '.'
    ensures i + n == |s| || s[i + n] == '.'
    decreases |s| - i
  {
    if i == |s| || s[i] == '.' then 0 else 1 + NonDotRun(s, i + 1)
  }

  /**
   * Reference definition: the regular expression `<prefix>([^.]+)\.imgur\.com`
   * matches `s` at position `p` with group 1 equal to `name`.
   */
  predicate MatchAt(s: string, prefix: string, p: nat, name: string) {
    p <= |s| && |name| > 0 && '.' !in name && StartsWith(s[p..], prefix + name + Domain)
  }

  /** A match found by `re.search`: where it starts, and its group 1. */
  datatype Hit = Hit(at: nat, name: string)

  /** Group 1 of the pattern when its `[^.]+` starts at `i`. */
  function CaptureAt(s: string, i: nat): Option<string>
    requires i <= |s|
  {
    var n := NonDotRun(s, i);
    if n > 0 && StartsWith(s[i + n..], Domain) then Some(s[i..i + n]) else None
  }

  /** A match of the pattern is what the greedy `[^.]+` captures there. */
  lemma MatchIsCapture(s: string, prefix: string, p: nat, name: string)
    requires MatchAt(s, prefix, p, name)
    ensures StartsWith(s[p..], prefix) && CaptureAt(s, p + |prefix|) == Some(name)
  {
    var i := p + |prefix|;
    var w := prefix + name + Domain;
    assert s[p..][..|w|] == w;
    assert s[p..][..|prefix|] == prefix by {
      assert w[..|prefix|] == prefix;
    }
    forall k | 0 <= k < |name| ensures s[i + k] == name[k] {
      assert w[|prefix| + k] == name[k];
    }
    assert s[i + |name|] == '.' by { assert w[|prefix| + |name|] == Domain[0]; }
    var n := NonDotRun(s, i);
    assert n == |name|;
    assert s[i..i + n] == name;
    assert s[i + n..][..|Domain|] == Domain by {
      forall k | 0 <= k < |Domain| ensures s[i + n + k] == Domain[k] {
        assert w[|prefix| + |name| + k] == Domain[k];
      }
    }
  }

  /** What the greedy `[^.]+` captures after the prefix is a match of the pattern. */
  lemma CaptureIsMatch(s: string, prefix: string, p: nat, name: string)
    requires p <= |s| && StartsWith(s[p..], prefix)
    requires CaptureAt(s, p + |prefix|) == Some(name)
    ensures MatchAt(s, prefix, p, name)
  {
    var i := p + |prefix|;
    var n := NonDotRun(s, i);
    assert name == s[i..i + n];
    assert '.' !in name by {
      forall k | 0 <= k < |name| ensures name[k] != '.' {
        assert name[k] == s[i + k];
      }
    }
    var w := prefix + name + Domain;
    assert s[p..][..|w|] == w by {
      forall k | 0 <= k < |w| ensures s[p + k] == w[k] {
        if k < |prefix| {
          assert s[p..][..|prefix|][k] == prefix[k];
        } else if k < |prefix| + |name| {
        } else {
          assert s[i + n..][..|Domain|][k - |prefix| - |name|] == Domain[k - |prefix| - |name|];
        }
      }
    }
  }

  /** The greedy `[^.]+` can only capture the whole run of non-dots. */
  lemma CaptureAtIsMatch(s: string, prefix: string, p: nat, name: string)
    requires p <= |s| && StartsWith(s[p..], prefix)
    ensures CaptureAt(s, p + |prefix|) == Some(name) <==> MatchAt(s, prefix, p, name)
  {
    if MatchAt(s, prefix, p, name) {
      MatchIsCapture(s, prefix, p, name);
    }
    if CaptureAt(s, p + |prefix|) == Some(name) {
      CaptureIsMatch(s, prefix, p, name);
    }
  }

  lemma MatchAtIsCapture(s: string, prefix: string, p: nat)
    requires p <= |s|
    ensures forall name :: MatchAt(s, prefix, p, name) <==>
      StartsWith(s[p..], prefix) && CaptureAt(s, p + |prefix|) == Some(name)
  {
    forall name
      ensures MatchAt(s, prefix, p, name) <==>
        StartsWith(s[p..], prefix) && CaptureAt(s, p + |prefix|) == Some(name)
    {
      if StartsWith(s[p..], prefix) {
        CaptureAtIsMatch(s, prefix, p, name);
      }
    }
  }

  ghost predicate NoMatchBetween(s: string, prefix: string, a: nat, b: nat) {
    forall q, name :: a <= q < b ==> !MatchAt(s, prefix, q, name)
  }

  /** No match at `from` and none in `(from, b)` means none in `[from, b)`. */
  lemma NoMatchExtends(s: string, prefix: string, from: nat, b: nat)
    requires from <= |s|
    requires !StartsWith(s[from..], prefix) || CaptureAt(s, from + |prefix|).None?
    requires NoMatchBetween(s, prefix, from + 1, b)
    ensures NoMatchBetween(s, prefix, from, b)
  {
    MatchAtIsCapture(s, prefix, from);
  }

  /** `re.search` from position `from`: the leftmost match. */
  function SearchFrom(s: string, prefix: string, from: nat): (r: Option<Hit>)
    requires from <= |s|
    ensures r.Some? ==>
      from <= r.value.at && MatchAt(s, prefix, r.value.at, r.value.name)
      && NoMatchBetween(s, prefix, from, r.value.at)
    ensures r.None? ==> NoMatchBetween(s, prefix, from, |s| + 1)
    decreases |s| - from
  {
    var hit :=
      if StartsWith(s[from..], prefix) then CaptureAt(s, from + |prefix|) else None;
    if hit.Some? then
      CaptureIsMatch(s, prefix, from, hit.value);
      Some(Hit(from, hit.value))
    else if from == |s| then
      NoMatchExtends(s, prefix, from, |s| + 1);
      None
    else
      var r := SearchFrom(s, prefix, from + 1);
      NoMatchExtends(s, prefix, from, if r.Some? then r.value.at else |s| + 1);
      r
  }

  /** `re.search`: the leftmost match, if any. */
  function Search(s: string, prefix: string): (r: Option<Hit>)
    ensures r.Some? ==> MatchAt(s, prefix, r.value.at, r.value.name) && NoMatchBetween(s, prefix, 0, r.value.at)
    ensures r.None? <==> NoMatchBetween(s, prefix, 0, |s| + 1)
  {
    SearchFrom(s, prefix, 0)
  }

  /** The origins pass: the first origin matching `https://<name>.imgur.com`. */
  function FromOrigins(origins: seq<string>): (r: Option<string>)
    ensures r.Some? ==> exists i :: (
      && 0 <= i < |origins|
      && Search(origins[i], Scheme).Some? && Search(origins[i], Scheme).value.name == r.value
      && forall j :: 0 <= j < i ==> Search(origins[j], Scheme).None?)
    ensures r.None? <==> forall i :: 0 <= i < |origins| ==> Search(origins[i], Scheme).None?
  {
    if |origins| == 0 then None
    else
      var hit := Search(origins[0], Scheme);
      if hit.Some? then Some(hit.value.name)
      else
        var rest := FromOrigins(origins[1..]);
        assert forall j :: 1 <= j < |origins| ==> origins[j] == origins[1..][j - 1];
        rest
  }

  /** A cookie domain's candidate name: the first match, when it is not reserved. */
  function CookieName(domain: string): (r: Option<string>)
    ensures r.Some? ==>
      && r.value !in ReservedHosts && |r.value| > 0 && '.' !in r.value
      && Contains(domain, r.value + Domain)
    ensures r.Some? ==> Search(domain, "").Some? && r.value == Search(domain, "").value.name
    ensures r.None? <==>
      !Contains(domain, Domain) || Search(domain, "").None? || Search(domain, "").value.name in ReservedHosts
  {
    if Contains(domain, Domain) then
      match Search(domain, "")
      case Some(hit) =>
        if hit.name in ReservedHosts then None
        else
          MatchContains(domain, "", hit.at, hit.name);
          Some(hit.name)
      case None => None
    else None
  }

  /** Group 1 is the whole run before `.imgur.com`, not part of it. */
  lemma CookieNameExample()
    ensures CookieName("bob.imgur.com") == Some("bob")
  {
    BobSearch();
    ContainsAt("bob.imgur.com", Domain, 3);
  }

  lemma BobSearch()
    ensures Search("bob.imgur.com", "") == Some(Hit(0, "bob"))
  {
    var s := "bob.imgur.com";
    BobCapture();
    assert StartsWith(s[0..], "");
  }

  lemma BobCapture()
    ensures CaptureAt("bob.imgur.com", 0) == Some("bob")
  {
    var s := "bob.imgur.com";
    assert s[3] == '.';
    assert NonDotRun(s, 3) == 0;
    assert NonDotRun(s, 0) == 3;
    assert s[3..] == Domain;
    assert s[0..3] == "bob";
  }

  /** The text a match spans, group 1 and the domain, occurs in the searched string. */
  lemma MatchContains(s: string, prefix: string, p: nat, name: string)
    requires MatchAt(s, prefix, p, name)
    ensures Contains(s, name + Domain)
  {
    var w := prefix + name + Domain;
    assert s[p..][..|w|] == w;
    assert s[p + |prefix|..p + |prefix| + |name + Domain|] == w[|prefix|..];
    assert w[|prefix|..] == name + Domain;
    ContainsAt(s, name + Domain, p + |prefix|);
  }

  /** The cookies pass: the first cookie domain giving an unreserved name. */
  function FromCookies(domains: seq<string>): (r: Option<string>)
    ensures r.Some? ==> r.value !in ReservedHosts
    ensures r.Some? ==> exists i :: (
      && 0 <= i < |domains| && CookieName(domains[i]) == r
      && forall j :: 0 <= j < i ==> CookieName(domains[j]).None?)
    ensures r.None? <==> forall i :: 0 <= i < |domains| ==> CookieName(domains[i]).None?
  {
    if |domains| == 0 then None
    else if CookieName(domains[0]).Some? then CookieName(domains[0])
    else
      var rest := FromCookies(domains[1..]);
      assert forall j :: 1 <= j < |domains| ==> domains[j] == domains[1..][j - 1];
      rest
  }

  /**
   * `extract_username_from_storage` over the already-parsed storage state: the
   * `origin` of each entry of `origins`, and the `domain` of each cookie.
   */
  function ExtractUsername(origins: seq<string>, cookieDomains: seq<string>): (r: Option<string>)
    ensures r.Some? ==> |r.value| > 0 && '.' !in r.value
    ensures FromOrigins(origins).Some? ==> r == FromOrigins(origins)
    ensures FromOrigins(origins).None? ==> r == FromCookies(cookieDomains)
  {
    match FromOrigins(origins)
    case Some(name) => Some(name)
    case None => FromCookies(cookieDomains)
  }

  /** A cookie-derived name is never one of the reserved hosts; an origin-derived one may be. */
  lemma CookieNamesAreUnreserved(cookieDomains: seq<string>)
    ensures ExtractUsername([], cookieDomains).Some? ==>
      ExtractUsername([], cookieDomains).value !in ReservedHosts
  {
  }

  /** `https://www.imgur.com` as an origin yields `www`: origins are not filtered. */
  lemma OriginsAreNotFiltered()
    ensures ExtractUsername(["https://www.imgur.com"], []) == Some("www")
  {
    var s := "https://www.imgur.com";
    assert s[0..][..8] == Scheme;
    assert s[11] == '.';
    assert NonDotRun(s, 11) == 0;
    assert NonDotRun(s, 8) == 3;
    assert s[11..] == Domain;
    assert s[8..11] == "www";
    assert CaptureAt(s, 8) == Some("www");
    assert Search(s, Scheme) == Some(Hit(0, "www"));
  }

  /** An origin's name under the same reserved-host filter the cookies pass applies. */
  function OriginName(origin: string): (r: Option<string>)
    ensures r.Some? <==> Search(origin, Scheme).Some? && Search(origin, Scheme).value.name !in ReservedHosts
    ensures r.Some? ==> r.value == Search(origin, Scheme).value.name
  {
    match Search(origin, Scheme)
    case Some(hit) => if hit.name in ReservedHosts then None else Some(hit.name)
    case None => None
  }

  /** The origins pass with the reserved hosts skipped, as the cookies pass skips them. */
  function FromOriginsUnreserved(origins: seq<string>): (r: Option<string>)
    ensures r.Some? ==> r.value !in ReservedHosts
    ensures r.Some? ==> exists i :: (
      && 0 <= i < |origins| && OriginName(origins[i]) == r
      && forall j :: 0 <= j < i ==> OriginName(origins[j]).None?)
    ensures r.None? <==> forall i :: 0 <= i < |origins| ==> OriginName(origins[i]).None?
  {
    if |origins| == 0 then None
    else if OriginName(origins[0]).Some? then OriginName(origins[0])
    else
      var rest := FromOriginsUnreserved(origins[1..]);
      assert forall j :: 1 <= j < |origins| ==> origins[j] == origins[1..][j - 1];
      rest
  }

  /** `extract_username_from_storage` with both passes filtered. */
  function ExtractUsernameUnreserved(origins: seq<string>, cookieDomains: seq<string>): (r: Option<string>)
    ensures r.Some? ==> r.value !in ReservedHosts
    ensures FromOriginsUnreserved(origins).Some? ==> r == FromOriginsUnreserved(origins)
    ensures FromOriginsUnreserved(origins).None? ==> r == FromCookies(cookieDomains)
  {
    match FromOriginsUnreserved(origins)
    case Some(name) => Some(name)
    case None => FromCookies(cookieDomains)
  }

  /** Filtering the origins changes nothing when the first origin match is a real name. */
  lemma {:induction false} UnreservedFirstOriginAgrees(origins: seq<string>)
    requires FromOrigins(origins).Some? ==> FromOrigins(origins).value !in ReservedHosts
    ensures FromOriginsUnreserved(origins) == FromOrigins(origins)
    decreases |origins|
  {
    if |origins| > 0 && Search(origins[0], Scheme).None? {
      UnreservedFirstOriginAgrees(origins[1..]);
    }
  }

  lemma UnreservedAgrees(origins: seq<string>, cookieDomains: seq<string>)
    requires FromOrigins(origins).Some? ==> FromOrigins(origins).value !in ReservedHosts
    ensures ExtractUsernameUnreserved(origins, cookieDomains) == ExtractUsername(origins, cookieDomains)
  {
    UnreservedFirstOriginAgrees(origins);
  }

  /** With the filter, `https://www.imgur.com` gives no name at all. */
  lemma UnreservedSkipsWww()
    ensures ExtractUsernameUnreserved(["https://www.imgur.com"], []) == None
  {
    OriginsAreNotFiltered();
    assert OriginName("https://www.imgur.com") == None;
  }

  // ---------------------------------------------------------------------------
  // prompt_yes_no and prompt_int

  /** A reply and the index of the input line that gave it. */
  datatype Answer<T> = Answer(value: T, line: nat)

  /** The prompt loop: the first line `parse` accepts; earlier lines were re-prompted. */
  function FirstReply<T>(lines: seq<string>, parse: string -> Option<T>): (r: Option<Answer<T>>)
    ensures r.Some? ==>
      && r.value.line < |lines|
      && parse(lines[r.value.line]) == Some(r.value.value)
      && forall j :: 0 <= j < r.value.line ==> parse(lines[j]).None?
    ensures r.None? <==> forall j :: 0 <= j < |lines| ==> parse(lines[j]).None?
  {
    if |lines| == 0 then None
    else if parse(lines[0]).Some? then Some(Answer(parse(lines[0]).value, 0))
    else
      var rest := FirstReply(lines[1..], parse);
      assert forall j :: 1 <= j < |lines| ==> lines[j] == lines[1..][j - 1];
      match rest
      case Some(a) => Some(Answer(a.value, a.line + 1))
      case None => None
  }

  /** One answer to `prompt_yes_no`, or `None` when it re-prompts. */
  function YesNoReply(line: string, default: bool): (r: Option<bool>)
    ensures IsBlank(line) ==> r == Some(default)
    ensures r.None? ==> !IsBlank(line)
    ensures r.Some? && !IsBlank(line) ==>
      |Lower(Strip(line))| > 0 && (r.value <==> Lower(Strip(line))[0] == 'y')
    ensures !IsBlank(line) ==> (r == Some(true) <==> Lower(Strip(line)) in {"y", "yes"})
    ensures !IsBlank(line) ==> (r == Some(false) <==> Lower(Strip(line)) in {"n", "no"})
  {
    StripEmptyIffBlank(line);
    var reply := Lower(Strip(line));
    if reply == "" then Some(default)
    else if reply == "y" || reply == "yes" then Some(true)
    else if reply == "n" || reply == "no" then Some(false)
    else None
  }

  /** `prompt_yes_no` over the lines typed; `None` when input ends first. */
  function PromptYesNo(lines: seq<string>, default: bool): (r: Option<Answer<bool>>)
    ensures r.Some? ==>
      && r.value.line < |lines|
      && YesNoReply(lines[r.value.line], default) == Some(r.value.value)
      && forall j :: 0 <= j < r.value.line ==> !IsBlank(lines[j]) && YesNoReply(lines[j], default).None?
    ensures r.None? <==> forall j :: 0 <= j < |lines| ==> YesNoReply(lines[j], default).None?
    ensures |lines| > 0 && IsBlank(lines[0]) ==> r == Some(Answer(default, 0))
  {
    FirstReply(lines, line => YesNoReply(line, default))
  }

  /** The default answers exactly the blank lines; no other line depends on it. */
  lemma YesNoDefaultOnlyWhenBlank(line: string, default: bool)
    ensures IsBlank(line) ==> YesNoReply(line, default) == Some(default)
    ensures !IsBlank(line) ==> YesNoReply(line, default) == YesNoReply(line, !default)
  {
    StripEmptyIffBlank(line);
  }

  /** Replies are trimmed and lower-cased before they are compared. */
  lemma YesExample()
    ensures YesNoReply(" YES\n", false) == Some(true)
  {
    StripYesLine();
    LowerYes();
  }

  lemma StripYesLine()
    ensures Strip(" YES\n") == "YES"
  {
    var line := " YES\n";
    assert IsSpace(line[0]) && !IsSpace(line[1]);
    assert TrimStart(line[1..]) == line[1..];
    var t := line[1..];
    assert IsSpace(t[3]) && !IsSpace(t[2]);
    assert TrimEnd(t[..3]) == t[..3];
  }

  lemma LowerYes()
    ensures Lower("YES") == "yes"
  {
    var l := Lower("YES");
    assert l[0] == 'y' && l[1] == 'e' && l[2] == 's';
  }

  lemma NoExample()
    ensures YesNoReply("N", true) == Some(false)
  {
    assert Strip("N") == "N";
    assert Lower("N") == "n";
  }

  /** Anything other than a blank line, y, yes, n or no is asked again. */
  lemma OtherReplyExample()
    ensures YesNoReply("nope", true) == None
  {
    var line := "nope";
    assert !IsSpace(line[0]) && !IsSpace(line[3]);
    assert Strip(line) == line;
    var l := Lower(line);
    assert l[0] == 'n' && l[1] == 'o' && l[2] == 'p' && l[3] == 'e';
    assert l == "nope";
  }

  predicate DigitSep(s: string, i: int) {
    0 < i < |s| - 1 && s[i] == '_' && IsDigit(s[i - 1]) && IsDigit(s[i + 1])
  }

  predicate DigitsOrSeps(s: string) {
    forall i :: 0 <= i < |s| ==> IsDigit(s[i]) || s[i] == '_'
  }

  /** Decimal digits, with single underscores allowed between two digits. */
  predicate IsDigitString(s: string) {
    && |s| > 0
    && DigitsOrSeps(s)
    && forall i :: 0 <= i < |s| && s[i] == '_' ==> DigitSep(s, i)
  }

  function DigitValue(c: char): nat
    requires IsDigit(c)
  {
    c as int - '0' as int
  }

  /** The number the digits spell, underscores skipped. */
  function DigitsValue(s: string): nat
    requires DigitsOrSeps(s)
  {
    if |s| == 0 then 0
    else if s[|s| - 1] == '_' then DigitsValue(s[..|s| - 1])
    else DigitsValue(s[..|s| - 1]) * 10 + DigitValue(s[|s| - 1])
  }

  /** Python's `int(s)` on a stripped string, for ASCII digits. */
  function ParseInt(s: string): (r: Option<int>)
    ensures r.Some? ==> |s| > 0 && IsDigit(s[|s| - 1])
    ensures r.Some? && r.value < 0 ==> s[0] == '-'
    ensures r.Some? ==> forall i :: 0 < i < |s| ==> IsDigit(s[i]) || s[i] == '_'
    ensures r.Some? <==> IsDigitString(s) || (|s| > 0 && s[0] in "+-" && IsDigitString(s[1..]))
    ensures IsDigitString(s) ==> r == Some(DigitsValue(s))
    ensures |s| > 0 && s[0] == '+' && IsDigitString(s[1..]) ==> r == Some(DigitsValue(s[1..]))
    ensures |s| > 0 && s[0] == '-' && IsDigitString(s[1..]) ==> r == Some(-(DigitsValue(s[1..]) as int))
  {
    if |s| > 0 && (s[0] == '+' || s[0] == '-') then
      var body := s[1..];
      if IsDigitString(body) then
        assert forall i :: 0 < i < |s| ==> s[i] == body[i - 1];
        Some(if s[0] == '-' then -(DigitsValue(body) as int) else DigitsValue(body))
      else None
    else if IsDigitString(s) then Some(DigitsValue(s))
    else None
  }

  /** A sign and underscores between digits are accepted, as by Python's `int`. */
  lemma SignAndSeparatorExamples()
    ensures ParseInt("+5") == Some(5)
    ensures ParseInt("-07") == Some(-7)
    ensures ParseInt("1_000") == Some(1000)
  {
    var u := "1_000";
    assert DigitSep(u, 1);
    assert IsDigitString(u);
    assert "1_"[..1] == "1" && DigitsValue("1_") == 1;
    assert "1_0"[..2] == "1_" && DigitsValue("1_0") == 10;
    assert "1_00"[..3] == "1_0" && DigitsValue("1_00") == 100;
    assert u[..4] == "1_00";
    var m := "-07";
    assert m[1..] == "07" && m[1..][..1] == "0";
  }

  /** Doubled, leading or trailing underscores, a bare sign and two signs are refused. */
  lemma MalformedNumberExamples()
    ensures ParseInt("1__0") == None
    ensures ParseInt("_1") == None
    ensures ParseInt("1_") == None
    ensures ParseInt("-") == None
    ensures ParseInt("+-1") == None
    ensures ParseInt("") == None
  {
    assert !DigitSep("1__0", 1);
    assert !DigitSep("_1", 0);
    assert !DigitSep("1_", 1);
    assert "+-1"[1..] == "-1";
  }

  function DigitChar(d: nat): char
    requires d < 10
  {
    ('0' as int + d) as char
  }

  /** Python's `str(n)` for a non-negative `n`. */
  function ShowNat(n: nat): string {
    if n < 10 then [DigitChar(n)] else ShowNat(n / 10) + [DigitChar(n % 10)]
  }

  /** Python's `str(n)`. */
  function ShowInt(n: int): string {
    if n < 0 then "-" + ShowNat(-n) else ShowNat(n)
  }

  lemma {:induction false} ShowNatDigits(n: nat)
    ensures |ShowNat(n)| > 0
    ensures forall i :: 0 <= i < |ShowNat(n)| ==> IsDigit(ShowNat(n)[i])
    ensures DigitsValue(ShowNat(n)) == n
    decreases n
  {
    if n >= 10 {
      ShowNatDigits(n / 10);
      var s := ShowNat(n);
      assert s[..|s| - 1] == ShowNat(n / 10);
    }
  }

  /** Reading back what `str` wrote gives the number. */
  lemma ParseShowRoundTrip(n: int)
    ensures ParseInt(ShowInt(n)) == Some(n)
  {
    var m := if n < 0 then -n else n;
    ShowNatDigits(m);
    assert IsDigitString(ShowNat(m));
    if n < 0 {
      assert ShowInt(n)[1..] == ShowNat(m);
    }
  }

  /** One answer to `prompt_int`, or `None` when it re-prompts. */
  function IntReply(line: string, default: int, minVal: int, maxVal: Option<int>): (r: Option<int>)
    ensures !IsBlank(line) ==>
      (r.Some? <==> ParseInt(Strip(line)).Some? && InBounds(ParseInt(Strip(line)).value, minVal, maxVal))
    ensures !IsBlank(line) && r.Some? ==> r == ParseInt(Strip(line))
  {
    StripEmptyIffBlank(line);
    var reply := Strip(line);
    if reply == "" then Some(default)
    else
      match ParseInt(reply)
      case None => None
      case Some(v) =>
        if v < minVal then None
        else if maxVal.Some? && v > maxVal.value then None
        else Some(v)
  }

  /** `prompt_int` over the lines typed; `None` when input ends first. */
  function PromptInt(lines: seq<string>, default: int, minVal: int, maxVal: Option<int>): (r: Option<Answer<int>>)
    ensures r.Some? ==>
      && r.value.line < |lines|
      && IntReply(lines[r.value.line], default, minVal, maxVal) == Some(r.value.value)
      && forall j :: 0 <= j < r.value.line ==> !IsBlank(lines[j]) && IntReply(lines[j], default, minVal, maxVal).None?
    ensures r.None? <==> forall j :: 0 <= j < |lines| ==> IntReply(lines[j], default, minVal, maxVal).None?
    ensures |lines| > 0 && IsBlank(lines[0]) ==> r == Some(Answer(default, 0))
  {
    forall j | 0 <= j < |lines| && IsBlank(lines[j]) ensures IntReply(lines[j], default, minVal, maxVal) == Some(default) {
      IntReplyInBounds(lines[j], default, minVal, maxVal);
    }
    FirstReply(lines, line => IntReply(line, default, minVal, maxVal))
  }

  /** `min_val <= v`, and `v <= max_val` when there is a maximum. */
  predicate InBounds(v: int, minVal: int, maxVal: Option<int>) {
    minVal <= v && (maxVal.None? || v <= maxVal.value)
  }

  /** A typed number is only ever accepted inside the bounds; only a blank line gives the default. */
  lemma IntReplyInBounds(line: string, default: int, minVal: int, maxVal: Option<int>)
    ensures IntReply(line, default, minVal, maxVal).Some? ==>
      var v := IntReply(line, default, minVal, maxVal).value;
      (IsBlank(line) && v == default)
      || (!IsBlank(line) && minVal <= v && (maxVal.None? || v <= maxVal.value))
    ensures IsBlank(line) ==> IntReply(line, default, minVal, maxVal) == Some(default)
  {
    StripEmptyIffBlank(line);
  }

  lemma StripNoSpace(s: string)
    requires forall i :: 0 <= i < |s| ==> !IsSpace(s[i])
    ensures Strip(s) == s
  {
  }

  /** Every number inside the bounds, typed as `str` writes it, is accepted as itself. */
  lemma IntReplyAcceptsInBounds(n: int, default: int, minVal: int, maxVal: Option<int>)
    requires minVal <= n && (maxVal.None? || n <= maxVal.value)
    ensures IntReply(ShowInt(n), default, minVal, maxVal) == Some(n)
  {
    var s := ShowInt(n);
    if n < 0 {
      ShowNatDigits(-n);
      assert s[0] == '-' && forall i :: 1 <= i < |s| ==> s[i] == ShowNat(-n)[i - 1];
    } else {
      ShowNatDigits(n);
    }
    StripNoSpace(s);
    ParseShowRoundTrip(n);
  }
}

=== FILE: strings.dfy ===
/**
 * The handful of Python `str` operations the core relies on, over `seq<char>`:
 * `startswith`, `in`, `split(c)[0]`, `split("/")[-1]`, `strip()` and `lower()`.
 */
module Strings {

  /** `s.startswith(p)` */
  predicate StartsWith(s: string, p: string) {
    |p| <= |s| && s[..|p|] == p
  }

  /** A prefix test drops a shared first character. */
  lemma StartsWithCons(s: string, c: char, p: string)
    ensures StartsWith(s, [c] + p) <==> |s| > 0 && s[0] == c && StartsWith(s[1..], p)
  {
    if |s| > 0 && |p| + 1 <= |s| {
      assert s[..|p| + 1] == [s[0]] + s[1..][..|p|];
    }
  }

  /** `t in s`: some suffix of `s` starts with `t`. */
  predicate Contains(s: string, t: string)
    decreases |s|
  {
    StartsWith(s, t) || (|s| > 0 && Contains(s[1..], t))
  }

  /** A match of `t` at a concrete position is a containment. */
  lemma {:induction false} ContainsAt(s: string, t: string, i: nat)
    requires i + |t| <= |s| && s[i..i + |t|] == t
    ensures Contains(s, t)
    decreases i
  {
    if i == 0 {
      assert s[..|t|] == t;
    } else {
      assert s[1..][i - 1..i - 1 + |t|] == s[i..i + |t|];
      ContainsAt(s[1..], t, i - 1);
    }
  }

  /** A containment has a position. */
  lemma {:induction false} ContainsHasPosition(s: string, t: string) returns (i: nat)
    requires Contains(s, t)
    ensures i + |t| <= |s| && s[i..i + |t|] == t
    decreases |s|
  {
    if StartsWith(s, t) {
      i := 0;
    } else {
      var j := ContainsHasPosition(s[1..], t);
      assert s[1..][j..j + |t|] == s[j + 1..j + 1 + |t|];
      i := j + 1;
    }
  }

  /** Every character of a contained string occurs in the container. */
  lemma ContainsChars(s: string, t: string, c: char)
    requires Contains(s, t) && c in t
    ensures c in s
  {
    var i := ContainsHasPosition(s, t);
    var k :| 0 <= k < |t| && t[k] == c;
    assert s[i + k] == t[k];
  }

  /** A string lacking one of `t`'s characters does not contain `t`. */
  lemma MissingCharRulesOut(s: string, t: string, c: char)
    requires c in t && c !in s
    ensures !Contains(s, t)
  {
    if Contains(s, t) {
      ContainsChars(s, t, c);
    }
  }

  /** `s.split(c)[0]`: the text before the first `c`, or all of `s`. */
  function BeforeFirst(s: string, c: char): (r: string)
    ensures StartsWith(s, r)
    ensures c !in r
    ensures |r| == |s| || s[|r|] == c
  {
    if |s| == 0 then ""
    else if s[0] == c then ""
    else [s[0]] + BeforeFirst(s[1..], c)
  }

  /** `s` starts with the segment `w` and a separator exactly when `w` is the text before its first separator. */
  lemma FirstSegmentIs(s: string, w: string, c: char)
    requires c !in w
    ensures StartsWith(s, w + [c]) <==> c in s && BeforeFirst(s, c) == w
  {
    var r := BeforeFirst(s, c);
    if StartsWith(s, w + [c]) {
      assert s[|w|] == c;
      assert r == s[..|r|] && w == s[..|w|];
    }
    if c in s && r == w {
      assert s[..|w| + 1] == w + [c];
    }
  }

  /** `s.split("/")[-1]`: the text after the last `/`, or all of `s`. */
  function LastSegment(s: string): (r: string)
    ensures |r| <= |s| && s[|s| - |r|..] == r
    ensures '/' !in r
    ensures |r| == |s| || s[|s| - |r| - 1] == '/'
  {
    if |s| == 0 then ""
    else if s[|s| - 1] == '/' then ""
    else LastSegment(s[..|s| - 1]) + [s[|s| - 1]]
  }

  /** The last segment is what follows the last `/`. */
  lemma LastSegmentAfter(s: string, i: nat)
    requires i < |s| && s[i] == '/' && '/' !in s[i + 1..]
    ensures LastSegment(s) == s[i + 1..]
  {
  }

  /** The characters Python's `str.isspace` accepts, which `strip()` removes. */
  predicate IsSpace(c: char) {
    c == ' ' || '\t' <= c <= '\r' || '\U{1c}' <= c <= '\U{1f}' || c == '\U{85}' || c == '\U{a0}'
    || c == '\U{1680}' || '\U{2000}' <= c <= '\U{200a}' || c == '\U{2028}' || c == '\U{2029}'
    || c == '\U{202f}' || c == '\U{205f}' || c == '\U{3000}'
  }

  function TrimStart(s: string): (r: string)
    ensures |r| <= |s| && s[|s| - |r|..] == r
    ensures forall i :: 0 <= i < |s| - |r| ==> IsSpace(s[i])
    ensures |r| == 0 || !IsSpace(r[0])
  {
    if |s| > 0 && IsSpace(s[0]) then TrimStart(s[1..]) else s
  }

  function TrimEnd(s: string): (r: string)
    ensures StartsWith(s, r)
    ensures forall i :: |r| <= i < |s| ==> IsSpace(s[i])
    ensures |r| == 0 || !IsSpace(r[|r| - 1])
  {
    if |s| > 0 && IsSpace(s[|s| - 1]) then TrimEnd(s[..|s| - 1]) else s
  }

  /**
   * `s.strip()`: `s` without leading and trailing whitespace. Only whitespace is
   * cut, and only at the two ends: `r` sits in `s` between two blank runs.
   */
  function Strip(s: string): (r: string)
    ensures Contains(s, r)
    ensures |r| == 0 || (!IsSpace(r[0]) && !IsSpace(r[|r| - 1]))
    ensures exists k :: Surrounds(s, r, k)
  {
    TrimmedAt(s);
    TrimEnd(TrimStart(s))
  }

  /** `s` is `r` at position `k`, with only whitespace before and after it. */
  predicate Surrounds(s: string, r: string, k: nat) {
    k + |r| <= |s| && s[k..k + |r|] == r && IsBlank(s[..k]) && IsBlank(s[k + |r|..])
  }

  /** Where the text `strip()` keeps starts: after the leading blank run. */
  lemma TrimmedAt(s: string)
    ensures Surrounds(s, TrimEnd(TrimStart(s)), |s| - |TrimStart(s)|)
    ensures Contains(s, TrimEnd(TrimStart(s)))
  {
    var t := TrimStart(s);
    var r := TrimEnd(t);
    var k := |s| - |t|;
    assert t == s[k..];
    assert r == s[k..k + |r|];
    ContainsAt(s, r, k);
    BlankPrefix(s, k);
    BlankTail(s, t, r);
    assert Surrounds(s, r, k);
  }

  lemma BlankPrefix(s: string, k: nat)
    requires k <= |s| && forall i :: 0 <= i < k ==> IsSpace(s[i])
    ensures IsBlank(s[..k])
  {
    assert forall i :: 0 <= i < k ==> s[..k][i] == s[i];
  }

  lemma BlankTail(s: string, t: string, r: string)
    requires |t| <= |s| && t == s[|s| - |t|..]
    requires |r| <= |t| && forall i :: |r| <= i < |t| ==> IsSpace(t[i])
    ensures IsBlank(s[|s| - |t| + |r|..])
  {
    assert s[|s| - |t| + |r|..] == t[|r|..];
    assert forall i :: 0 <= i < |t| - |r| ==> t[|r|..][i] == t[|r| + i];
  }

  predicate IsBlank(s: string) {
    forall i :: 0 <= i < |s| ==> IsSpace(s[i])
  }

  /** `strip()` leaves nothing exactly of the lines made only of whitespace. */
  lemma StripEmptyIffBlank(s: string)
    ensures Strip(s) == "" <==> IsBlank(s)
  {
    var t := TrimStart(s);
    if t != "" {
      assert t[0] == s[|s| - |t|] && !IsSpace(t[0]);
      assert |TrimEnd(t)| > 0;
    }
  }

  function LowerChar(c: char): char {
    if 'A' <= c <= 'Z' then (c as int + 32) as char else c
  }

  /**
   * `s.lower()` restricted to ASCII letters; every other character is kept.
   */
  function Lower(s: string): (r: string)
    ensures |r| == |s|
    ensures forall i :: 0 <= i < |s| ==> r[i] == LowerChar(s[i])
    ensures forall i :: 0 <= i < |r| ==> !('A' <= r[i] <= 'Z')
    ensures forall i :: 0 <= i < |s| ==>
      r[i] == s[i] || ('A' <= s[i] <= 'Z' && r[i] as int == s[i] as int + 32)
  {
    seq(|s|, i requires 0 <= i < |s| => LowerChar(s[i]))
  }

  predicate IsDigit(c: char) {
    '0' <= c <= '9'
  }

  /** Python's `[A-Za-z0-9]` */
  predicate IsAsciiAlnum(c: char) {
    'A' <= c <= 'Z' || 'a' <= c <= 'z' || IsDigit(c)
  }
}

=== FILE: wrappers.dfy ===
/** The optional value used wherever the Python code returns `None` or a value. */
module Wrappers {

  datatype Option<+T> = None | Some(value: T)
}
